=== FILE: README.md ===
# Movie search: request/result correlation pipeline in Dafny

This project models the part of the movie-search application that correlates asynchronous
requests with their results. The application has a NestJS back end with BullMQ workers and an
rxjs event bus, and a Next.js web app that listens on server-sent events.

- A REST call puts a job on a queue, tagged with a `queryId` that the client chose.
- A worker (the movie worker or the favorites worker) turns that job into exactly one terminal
  event on the back end's event bus. The event is either the operation's success class or its
  failure class.
- The unified stream (`GET /stream`) forwards every known event class to every client as a
  `{type, status, queryId, data | error, duration}` message. The six per-feature endpoints do the
  same for one operation each, optionally narrowed to one `queryId`.
- In the browser, one shared connection manager routes each message to the subscriptions bound
  to its `queryId` (or to `""`, the wildcard) that list its type name. It reconnects with
  exponential back-off up to five times.

Around this pipeline the project also models:

- the favorites store (required-field validation, dedupe by `imdbID`, remove by filter);
- the OMDb search normaliser (drop entries without an id, trim and lower-case ids, dedupe with
  JavaScript `Map` semantics, `slice(0, limit)`, `Math.ceil(total / limit)` pages);
- the web app's favorites cache reducer;
- the favorites request body's validation rules.

Modules, one per source file plus shared pieces:

- `Wrappers`: `Option` and `Result`.
- `JsMap`: an insertion-ordered JavaScript `Map` as a sequence of key/value pairs (`set`, `get`,
  `delete`, `new Map(entries)`).
- `Streams`: rxjs/array `filter` then `map`, and `filter(Boolean)`, each with a positional
  specification.
- `Movies`: the movie record and `list.filter(m => m.imdbID !== id)`.
- `Events`: the twelve event classes as one tagged union, and the event bus as an append-only
  log (a class).
- `UnifiedStream`, `FeatureStreams`: the server-sent-event mappers, as pure functions on
  `seq<BusEvent>`.
- `MovieService`: the normalisation and pagination inside `MovieService.search`.
- `FavoritesStore`: `FavoritesService`, a class whose methods update the favorites list in place.
- `MovieWorker`, `FavoriteWorker`: the two queue processors. Each is a class that publishes into
  the bus, specified by a pure function giving the events (and the store) a job produces.
- `FavoritesCache`: the `onmessage` decision of `useFavoritesSSE`.
- `MovieDto`: the `CreateFavoriteDto`/`MovieDto` validators.
- `ConnectionManager`: `SSEConnectionManager`, a class over the subscription map, the
  reconnect counter and the source's ready state, plus the `useUnifiedSSE` handler.
- `Pipeline`: end-to-end correlation lemmas across the workers, the streams and the client
  router.

Collaborators the model cannot see are parameters. These are the OMDb HTTP response (or its
error), the AI title suggester, the embedding ranker, the recommendations query, the URL
validator and the elapsed time `Date.now() - start`.

## Model

| member | source | states |
|---|---|---|
| `JsMap.IndexOf` | web-app/src/hooks/useUnifiedSSE.ts:163 | `Map.get` finds the single position holding a key, the first one if several do, and reports absence exactly when no entry has the key |
| `JsMap.Set` | web-app/src/hooks/useUnifiedSSE.ts:146 | `Map.set` keeps keys distinct, keeps the key order when the key exists and appends it otherwise, binds the key to the new value and leaves every other key's value unchanged |
| `JsMap.Delete` | web-app/src/hooks/useUnifiedSSE.ts:154 | `Map.delete` keeps exactly the entries with another key |
| `JsMap.DeleteKeepsOrder` | web-app/src/hooks/useUnifiedSSE.ts:154 | `Map.delete` is the order-preserving filter of the entries by key: the survivors keep their insertion order |
| `JsMap.DeleteSpec` | web-app/src/hooks/useUnifiedSSE.ts:154-156 | after `delete` the key is gone, the size drops by one exactly when it was present, an absent key changes nothing, and other keys keep their values |
| `JsMap.FromEntriesKeys` | backend/src/movie/services/movie.service.ts:28-30 | `new Map(entries)` has distinct keys, exactly the keys of the entries, and only pairs drawn from them |
| `JsMap.FromEntriesOrder` | backend/src/movie/services/movie.service.ts:28-30 | `new Map(entries)` orders keys by their first occurrence |
| `JsMap.FromEntriesLastValue` | backend/src/movie/services/movie.service.ts:28-30 | in `new Map(entries)` each key is bound to the value of its last occurrence |
| `JsMap.FromEntriesSpec` | backend/src/movie/services/movie.service.ts:28-58 | the three facts above together: JavaScript `Map` construction semantics |
| `Streams.FilterMapSpec` | backend/src/stream/unified-sse.controller.ts:73-89 | `filter(keep)` then `map(f)` yields one output per passing input, in order: output `i` is `f` of the `i`-th passing input, and the passing positions are exactly those `keep` accepts |
| `Streams.FilterMapAppend` | backend/src/stream/unified-sse.controller.ts:73-89 | filtering and mapping a concatenation is the concatenation of the results, so a stream only grows when the bus does |
| `Streams.CompactSpec` | backend/src/movie/processors/movie-search.processor.ts:102-104 | `filter(Boolean)` keeps exactly the present values, in order, and is empty iff every entry is absent |
| `Movies.WithoutSpec` | backend/src/favorite-movie/services/favorites.service.ts:31-33 | removal by filter drops every entry with the id and no other, keeps the survivors in order, and leaves a list without the id unchanged |
| `Movies.WithoutNothing` | backend/src/favorite-movie/services/favorites.service.ts:32 | filtering out an id that no entry has returns the same list |
| `Movies.WithoutKeepsIdsDistinct` | backend/src/favorite-movie/services/favorites.service.ts:32 | removal preserves pairwise-distinct ids |
| `Movies.CountIdDistinct` | backend/src/favorite-movie/services/favorites.service.ts:24-28 | with distinct ids, an id occurs once if present and never if absent |
| `MovieService.TrimStart` | backend/src/movie/services/movie.service.ts:48 | the leading part `trim` removes is all white space, and what remains is a suffix that does not start with white space |
| `MovieService.TrimEnd` | backend/src/movie/services/movie.service.ts:48 | the trailing part `trim` removes is all white space, and what remains is a prefix that does not end with white space |
| `MovieService.TrimSpec` | backend/src/movie/services/movie.service.ts:48 | `trim` returns one contiguous slice with only white space around it, neither starting nor ending with white space |
| `MovieService.ToLower` | backend/src/movie/services/movie.service.ts:48 | lower-casing keeps the length and maps each character on its own |
| `MovieService.NormaliseIdSpec` | backend/src/movie/services/movie.service.ts:48-54 | normalised ids are no longer than the input, have no surrounding white space and no upper-case ASCII letter, and normalising twice changes nothing |
| `MovieService.TrimOfTrimmed` | backend/src/movie/services/movie.service.ts:48 | a string that neither starts nor ends with white space is its own trim |
| `MovieService.FirstRawIndex` | backend/src/movie/services/movie.service.ts:31-48 | locates the first raw entry with a truthy id normalising to a key, with no earlier one |
| `MovieService.KeyedEntries` | backend/src/movie/services/movie.service.ts:30-57 | the `[key, movie]` pairs come from the raw entries with a truthy id, in order, and each movie is stored under its own normalised id |
| `MovieService.UniqueMoviesAreValues` | backend/src/movie/services/movie.service.ts:28-58 | the deduplicated movies are the map's values, each under its own id |
| `MovieService.UniqueMoviesIds` | backend/src/movie/services/movie.service.ts:28-58 | output ids are distinct, and each is the normalised id of a raw entry with a non-empty id (entries without one are dropped) |
| `MovieService.LastRawIsLastEntry` | backend/src/movie/services/movie.service.ts:28-58 | the last raw entry for an id is the one kept |
| `MovieService.UniqueMoviesLastWins` | backend/src/movie/services/movie.service.ts:28-58 | a repeated id keeps the fields of its last raw entry |
| `MovieService.FirstIndexToRaw` | backend/src/movie/services/movie.service.ts:28-58 | the first pair for a key comes from the first raw entry for it |
| `MovieService.UniqueMoviesOrder` | backend/src/movie/services/movie.service.ts:28-58 | a repeated id keeps the position of its first raw entry |
| `MovieService.UniqueMoviesSpec` | backend/src/movie/services/movie.service.ts:28-58 | the deduplication as a whole: distinct ids, drawn from entries with ids, last fields, first positions |
| `MovieService.SliceSpec` | backend/src/movie/services/movie.service.ts:59 | `slice(0, limit)` keeps `limit` elements when there are that many and all of them otherwise (JavaScript semantics for a negative limit) |
| `MovieService.TotalPagesSpec` | backend/src/movie/services/movie.service.ts:65 | for a positive limit `ceil(total / limit)` is the least page count holding all results: 0 exactly for no results, otherwise the last page is not empty |
| `MovieService.TotalPagesExamples` | backend/src/movie/services/movie.service.ts:65 | 30/10 gives 3, 31/10 gives 4, 0/10 gives 0; a limit of 0 gives `Infinity` or `NaN` |
| `MovieService.Search` | backend/src/movie/services/movie.service.ts:20-70 | a failed request surfaces as the error "Failed to search movies" and only then; otherwise `currentPage` is the page, `totalResults` the parsed total or 0 when missing, and at most the deduplicated movies are returned |
| `MovieService.SearchOkSpec` | backend/src/movie/services/movie.service.ts:24-66 | a successful search returns exactly `uniqueMovies.slice(0, limit)` of the deduplicated movies (empty when `Search` is missing; a negative `limit` drops that many from the end), with distinct ids drawn from the raw entries, and `totalPages = ceil(total / limit)` |
| `FavoritesStore.MissingFieldsList` | backend/src/favorite-movie/services/favorites.service.ts:9-15 | the missing-field report names the empty ones among imdbID, title, year and poster, in that order |
| `FavoritesStore.MissingFieldsMembers` | backend/src/favorite-movie/services/favorites.service.ts:15 | a field is reported iff it is required and empty |
| `FavoritesStore.MissingFieldsSpec` | backend/src/favorite-movie/services/favorites.service.ts:9-22 | the report is empty iff all four fields are set, and `type` is never checked |
| `FavoritesStore.AddedSpec` | backend/src/favorite-movie/services/favorites.service.ts:8-29 | `add` keeps ids distinct and non-empty; a movie missing a required field or with a known id leaves the list unchanged; otherwise it appends the movie, after which its id occurs exactly once |
| `FavoritesStore.AddedIdempotent` | backend/src/favorite-movie/services/favorites.service.ts:24-28 | adding the same movie twice equals adding it once |
| `FavoritesStore.AddedThenRemoved` | backend/src/favorite-movie/services/favorites.service.ts:28-32 | after `add(m)` and `remove(m.imdbID)` no entry with that id remains, and if the id was new the list is back to what it was |
| `FavoritesStore.WithoutKeepsInvariant` | backend/src/favorite-movie/services/favorites.service.ts:31-33 | `remove` keeps the store invariant, and removing the empty id is a no-op |
| `FavoritesStore.FavoritesService.constructor` | backend/src/favorite-movie/services/favorites.service.ts:6 | the store starts empty and valid |
| `FavoritesStore.FavoritesService.Add` | backend/src/favorite-movie/services/favorites.service.ts:8-29 | `add` updates the list in place to `Added(old list, movie)` and keeps distinct, non-empty ids |
| `FavoritesStore.FavoritesService.Remove` | backend/src/favorite-movie/services/favorites.service.ts:31-33 | `remove` reassigns the list to its filter by id and keeps the invariant |
| `FavoritesStore.FavoritesService.GetAll` | backend/src/favorite-movie/services/favorites.service.ts:35-37 | `getAll` returns the current list, whose ids are distinct, and changes nothing |
| `FavoriteWorker.JobKind` | backend/src/favorite-movie/processors/movie-search.processor.ts:34-43 | exactly the three job names are dispatched: a name selects add, remove or get-all exactly when it is that operation's job name |
| `FavoriteWorker.StepSpec` | backend/src/favorite-movie/processors/movie-search.processor.ts:34-124 | every recognised job publishes exactly one success event of its class with the job's queryId and the list after the operation; get-all leaves the store alone; no failure event is ever published; an unknown name does nothing; the store invariant is kept |
| `FavoriteWorker.AddWithoutMovie` | backend/src/favorite-movie/processors/movie-search.processor.ts:49-53 | an add job without a movie copies an empty object, which the store rejects |
| `FavoriteWorker.RemoveWithoutId` | backend/src/favorite-movie/processors/movie-search.processor.ts:78-80 | a remove job without an id leaves the store unchanged |
| `FavoriteWorker.AddTwice` | backend/src/favorite-movie/processors/movie-search.processor.ts:46-65 | two add jobs for the same complete movie give two success events whose lists both hold that id exactly once |
| `FavoriteWorker.FavoriteMovieProcessor.constructor` | backend/src/favorite-movie/processors/movie-search.processor.ts:19-25 | the worker holds the given store and bus |
| `FavoriteWorker.FavoriteMovieProcessor.Process` | backend/src/favorite-movie/processors/movie-search.processor.ts:27-44 | `process` changes the store and appends to the bus exactly as `Step` says |
| `FavoriteWorker.FavoriteMovieProcessor.ProcessAdd` | backend/src/favorite-movie/processors/movie-search.processor.ts:46-73 | add, then read all, then publish one success event |
| `FavoriteWorker.FavoriteMovieProcessor.ProcessRemove` | backend/src/favorite-movie/processors/movie-search.processor.ts:75-100 | remove, then read all, then publish one success event |
| `FavoriteWorker.FavoriteMovieProcessor.ProcessGetAll` | backend/src/favorite-movie/processors/movie-search.processor.ts:102-125 | read all without changing the store, then publish one success event |
| `MovieWorker.SearchMovies` | backend/src/movie/processors/movie-search.processor.ts:51-53 | a search query fails exactly when the OMDb request does, with "Failed to search movies", and otherwise yields exactly the movie list of the service's search, `uniqueMovies.slice(0, limit)` |
| `MovieWorker.Lookups` | backend/src/movie/processors/movie-search.processor.ts:89-101 | one lookup per suggested title, in suggestion order |
| `MovieWorker.JobKind` | backend/src/movie/processors/movie-search.processor.ts:32-42 | exactly the three job names are dispatched: a name selects search, semantic search or recommendations exactly when it is that operation's job name |
| `MovieWorker.JobEventsSpec` | backend/src/movie/processors/movie-search.processor.ts:32-151 | a recognised job publishes exactly one event, of its own operation, carrying the job's queryId: success with the movies and duration, or failure with the message; an unknown name publishes nothing |
| `MovieWorker.SearchJobSpec` | backend/src/movie/processors/movie-search.processor.ts:44-63 | `movie-search` publishes Complete with the normalised movies, or Failed with "Failed to search movies" |
| `MovieWorker.SemanticFallback` | backend/src/movie/processors/movie-search.processor.ts:75-87 | with no suggestions, a plain search with page 1 and limit 10 is published as a semantic success, even when it finds nothing |
| `MovieWorker.SemanticSuggestFails` | backend/src/movie/processors/movie-search.processor.ts:71-73 | a failing suggester gives one semantic failure event carrying its message |
| `MovieWorker.FoundMoviesSpec` | backend/src/movie/processors/movie-search.processor.ts:89-104 | lookups that throw or find nothing are dropped, and the survivors keep suggestion order |
| `MovieWorker.LookupSpec` | backend/src/movie/processors/movie-search.processor.ts:89-98 | a lookup finds a movie iff OMDb answers with at least one entry with an id, and then it is the first deduplicated one |
| `MovieWorker.SemanticWithSuggestions` | backend/src/movie/processors/movie-search.processor.ts:106-125 | no surviving movie gives one failure "No movies found for suggested titles"; otherwise the event carries exactly the ranker's answer for the found movies |
| `MovieWorker.RecommendationsJobSpec` | backend/src/movie/processors/movie-search.processor.ts:128-151 | recommendations publish Complete with the query's movies, or Failed with its message |
| `MovieWorker.MovieSearchProcessor.constructor` | backend/src/movie/processors/movie-search.processor.ts:18-23 | the worker holds the given bus and collaborators |
| `MovieWorker.MovieSearchProcessor.Process` | backend/src/movie/processors/movie-search.processor.ts:25-42 | `process` appends exactly `JobEvents` to the bus |
| `MovieWorker.MovieSearchProcessor.ProcessSearchMovie` | backend/src/movie/processors/movie-search.processor.ts:44-63 | appends the one terminal event of the search outcome |
| `MovieWorker.MovieSearchProcessor.ProcessSemanticMovieSearch` | backend/src/movie/processors/movie-search.processor.ts:65-126 | appends the one terminal event of the semantic outcome, step by step through suggestion, fallback, lookups and ranking |
| `MovieWorker.MovieSearchProcessor.ProcessMovieRecommendations` | backend/src/movie/processors/movie-search.processor.ts:128-151 | appends the one terminal event of the recommendations outcome |
| `UnifiedStream.TypeNameInjective` | backend/src/stream/unified-sse.controller.ts:22-37 | the twelve classes map to twelve distinct type names, none of them "UNKNOWN" |
| `UnifiedStream.StreamSpec` | backend/src/stream/unified-sse.controller.ts:73-212 | one message per event of the twelve classes, in bus order, and none for any other event; success classes give status "success" with data and duration, failure classes give "failure" with the error; the queryId is copied and never filtered on |
| `UnifiedStream.FallbackUnreachable` | backend/src/stream/unified-sse.controller.ts:214-220 | the fallback is type "UNKNOWN", status "failure" and queryId "", and no forwarded message ever has that type |
| `FeatureStreams.EndpointSpec` | backend/src/movie/controllers/movie-sse.controller.ts:14-91 | an endpoint forwards only its own two classes that pass the correlation filter (an absent or empty parameter passes all), one message per event in order, success as results and duration and failure as the error message, without the queryId |
| `FeatureStreams.EmptyParamIsAbsent` | backend/src/favorite-movie/controllers/favorite-movie-sse.controller.ts:21 | an empty `queryId` parameter narrows nothing, exactly like an absent one |
| `FeatureStreams.RemoveStreamByClass` | backend/src/favorite-movie/controllers/favorite-movie-sse.controller.ts:41-65 | the remove endpoint emits success exactly for the remove success class and failure exactly for the remove failure class, whatever the file names of their imports |
| `FavoritesCache.Decide` | web-app/src/hooks/useFavoritesSSE.ts:14-57 | a list is written only for an add or remove with a cached list, and the cache is left alone exactly for a heartbeat or an add of an already cached id |
| `FavoritesCache.Apply` | web-app/src/hooks/useFavoritesSSE.ts:23-55 | `setQueryData` replaces the list; `invalidateQueries` and no change keep the cached list, which stays readable until the refetch answers |
| `FavoritesCache.HeartbeatNoChange` | web-app/src/hooks/useFavoritesSSE.ts:18-20 | a heartbeat never changes the cache |
| `FavoritesCache.AddSpec` | web-app/src/hooks/useFavoritesSSE.ts:27-39 | an add with a movie and a cached list appends only when the id is new, so the id is then cached exactly once and the ids stay distinct |
| `FavoritesCache.RemoveSpec` | web-app/src/hooks/useFavoritesSSE.ts:40-48 | a remove with an id and a cached list drops exactly that id and keeps the rest in order |
| `FavoritesCache.NoCacheInvalidates` | web-app/src/hooks/useFavoritesSSE.ts:27-44 | add or remove with nothing cached only invalidates |
| `FavoritesCache.OtherShapesInvalidate` | web-app/src/hooks/useFavoritesSSE.ts:49-56 | any other shape, including a message that does not parse, invalidates |
| `FavoritesCache.DecideKeepsIdsDistinct` | web-app/src/hooks/useFavoritesSSE.ts:14-57 | whatever message arrives, a cached list with distinct ids keeps distinct ids |
| `MovieDto.DigitRun` | backend/src/dto/create-favorite.dto.ts:12 | measures the maximal run of ASCII digits at a position |
| `MovieDto.ImdbIdPattern` | backend/src/dto/create-favorite.dto.ts:11-13 | `imdbID` matches iff it is "tt" followed by exactly 7 or 8 ASCII digits and nothing else |
| `MovieDto.YearPattern` | backend/src/dto/create-favorite.dto.ts:21-23 | `year` matches iff its first four characters are digits, whatever follows |
| `MovieDto.ImdbIdExamples` | backend/src/dto/create-favorite.dto.ts:11-13 | concrete ids that pass ("tt0133093", "tt12345678") and fail (too few or too many digits, upper-case prefix) |
| `MovieDto.YearExamples` | backend/src/dto/create-favorite.dto.ts:21-23 | concrete years that pass ("1999", "2019–2022") and fail ("199", "N/A") |
| `MovieDto.CreateFavoriteSpec` | backend/src/dto/create-favorite.dto.ts:10-34 | a body is accepted iff `movie` is an object with a patterned `imdbID`, string `title` and `type` (the empty string allowed), a patterned `year` and a URL `poster` |
| `ConnectionManager.MatchingIdsSpec` | web-app/src/hooks/useUnifiedSSE.ts:128-138 | routing reaches a subscription iff its queryId is empty or equal to the event's and it lists the event's type, in map order, each at most once |
| `ConnectionManager.RoutingIsolation` | web-app/src/hooks/useUnifiedSSE.ts:130-132 | a subscription bound to one id never sees another id's event; one bound to "" sees every event of its types |
| `ConnectionManager.ErrorRunSpec` | web-app/src/hooks/useUnifiedSSE.ts:108-115 | consecutive errors schedule 1000·2^i ms for attempt i while below the cap of 5, and nothing after |
| `ConnectionManager.AtMostFiveRetries` | web-app/src/hooks/useUnifiedSSE.ts:47-48 | from a fresh counter at most five retries are scheduled, the first two after 1000 and 2000 ms |
| `ConnectionManager.HandleEventSpec` | web-app/src/hooks/useUnifiedSSE.ts:195-206 | after any event the hook is not loading; a success stores the data and clears the error; a failure always leaves a non-empty message, the server's when it sent one |
| `ConnectionManager.SSEConnectionManager.constructor` | web-app/src/hooks/useUnifiedSSE.ts:44-53 | no source, no subscriptions, no attempts |
| `ConnectionManager.SSEConnectionManager.Connect` | web-app/src/hooks/useUnifiedSSE.ts:62-99 | an open source is kept; otherwise the old source is closed and a new one is created and starts connecting |
| `ConnectionManager.SSEConnectionManager.Disconnect` | web-app/src/hooks/useUnifiedSSE.ts:101-106 | the source is closed and set to null |
| `ConnectionManager.SSEConnectionManager.OnOpen` | web-app/src/hooks/useUnifiedSSE.ts:75-78 | a connecting source that opens becomes open and resets the attempt counter to 0 |
| `ConnectionManager.SSEConnectionManager.OnError` | web-app/src/hooks/useUnifiedSSE.ts:95-98 | an error on a live (connecting or open) source leaves it connecting or closed and runs `handleReconnect` on the counter |
| `ConnectionManager.SSEConnectionManager.HandleReconnect` | web-app/src/hooks/useUnifiedSSE.ts:108-126 | at the cap nothing is scheduled; below it the counter rises by one and the delay is 1000·2^(attempts−1); the counter never exceeds 5 |
| `ConnectionManager.SSEConnectionManager.FireReconnect` | web-app/src/hooks/useUnifiedSSE.ts:121-125 | a fired timer connects only while somebody is subscribed, creating a new source unless the current one is open, and leaves the map and the counter alone |
| `ConnectionManager.SSEConnectionManager.RouteEvent` | web-app/src/hooks/useUnifiedSSE.ts:128-138 | the loop calls exactly the matching subscriptions' handlers, in map order |
| `ConnectionManager.SSEConnectionManager.OnMessage` | web-app/src/hooks/useUnifiedSSE.ts:80-93 | a parsed message is routed; one that does not parse reaches nobody |
| `ConnectionManager.SSEConnectionManager.Subscribe` | web-app/src/hooks/useUnifiedSSE.ts:140-151 | stores or replaces the entry under its id, leaves the others unchanged, and connects exactly when the registry size is 1 after the set |
| `ConnectionManager.SSEConnectionManager.Unsubscribe` | web-app/src/hooks/useUnifiedSSE.ts:153-160 | removes exactly that id, and closes and nulls the source when the registry becomes empty |
| `ConnectionManager.SSEConnectionManager.UpdateSubscription` | web-app/src/hooks/useUnifiedSSE.ts:162-167 | changes only the queryId of an existing entry, keeping its types and handler; an unknown id changes nothing |
| `ConnectionManager.SSEConnectionManager.HookMount` | web-app/src/hooks/useUnifiedSSE.ts:191-209 | the hook subscribes a null queryId as the wildcard "": the map gains or replaces exactly that entry, in `Map.set` order, the connection opens when it is the only subscription, and the reconnect counter is untouched |
| `ConnectionManager.QueryIdChangedState` | web-app/src/hooks/useUnifiedSSE.ts:218-220 | a truthy queryId starts loading and clears the error, keeping the data shown; a null or empty one leaves the state |
| `ConnectionManager.LoadingCycle` | web-app/src/hooks/useUnifiedSSE.ts:194-224 | a truthy queryId puts the hook into loading without an error, and the next event ends loading with its data or a non-empty error |
| `ConnectionManager.SSEConnectionManager.HookQueryIdChanged` | web-app/src/hooks/useUnifiedSSE.ts:217-224 | a truthy new queryId starts loading, clears the error and rebinds an existing subscription's queryId, keeping its event types, handler and key order and every other entry; an unknown id or a null or empty queryId leaves the map unchanged; the source and the counter are untouched |
| `Pipeline.TerminalReachesStream` | backend/src/stream/unified-sse.controller.ts:73-88 | one terminal event on the bus adds exactly one unified message, with its queryId and its class's type name |
| `Pipeline.DeliveredOnlyToItsQuery` | web-app/src/hooks/useUnifiedSSE.ts:128-138 | a result for id `q` reaches the subscriptions bound to `q` that list its type, and never one bound to another id |
| `Pipeline.MovieJobCorrelation` | backend/src/movie/processors/movie-search.processor.ts:55-149 | a movie job with id `q` adds exactly one unified message with id `q` and its operation's type name, and exactly one status message to the endpoint narrowed to `q` |
| `Pipeline.FavoriteJobCorrelation` | backend/src/favorite-movie/processors/movie-search.processor.ts:59-117 | a favorites job with id `q` adds exactly one success message with id `q` carrying the list after the job |
| `Pipeline.ConcurrentJobsIsolated` | web-app/src/hooks/useUnifiedSSE.ts:130-134 | of two concurrent jobs with distinct ids, a subscription bound to the first is never reached by the second's result |

## Left out

- Transport and framework plumbing is not modelled: `EventSource`, axios, BullMQ queues, the
  NestJS event, query and command buses, and JSON serialisation. The event bus is an
  append-only log. Each query and command handler is a direct call. The browser source is its
  ready state.
- Timing is a parameter. `Date.now() - start` is `elapsed`. A `setTimeout` callback is the
  explicit `FireReconnect` step, and the model does not track when it fires.
- Logging (`console.*`) is left out.
- The OMDb URL, the API key and the `year` query parameter are left out; the OMDb answer is a
  parameter (`Collaborators.omdb`).
- `totalResults` is modelled as the number `parseInt` reads. A non-numeric string (`NaN`) is not
  modelled.
- `page` and `limit` arrive as query strings. The model uses their numeric values, and
  `currentPage` is that number where the source echoes the string. Non-numeric strings are not
  modelled.
- `MovieService.ToLower` only lowers ASCII letters, because IMDb ids are ASCII. Unicode case
  mapping is not modelled.
- The AI title suggester, the embedding ranker (floating-point cosine similarity) and the
  recommendations query (favorites → AI → searches) are oracles in `MovieWorker.Collaborators`.
- The title lookups run concurrently under `Promise.all`. The model evaluates them one by one.
  Their results do not depend on each other, and order is kept either way.
- `FavoritesStore.FavoritesService.GetAll`: the source returns the store's own array. A later
  `push` is therefore visible through an event published earlier. The model publishes a copy of
  the value, so this aliasing is not captured.
- `FavoriteWorker.RemoveTarget`: a remove job without `imdbID` filters with `!== undefined`.
  The model filters by "", which no stored movie carries, and `FavoriteWorker.RemoveWithoutId`
  proves that the outcome is the same (nothing removed).
- A payload movie with extra fields is reduced to the five known fields. The store never reads
  the others.
- A publish that throws inside the favorites worker is not modelled. The source lets it escape
  `process` without a failure event.
- The movie worker's `filters` object is assumed present. The REST controller always sends it.
- The `poster` URL check (`@IsUrl`) is a parameter of `MovieDto.MovieDtoErrors`, not a model of
  the validator library.
- A `MovieDto` that fails validation is reported by property name only. The validator's
  messages and constraint names are left out.
- Messages the web app receives are taken as already parsed (`Option<StreamMessage>`,
  `CacheMessage`); `JSON.parse` itself is not modelled.
- The `SSEConnectionManager.getInstance` singleton, React's scheduling of state updates and
  effects, and the favorites page's own `EventSource` lifetime are left out; the mount
  effect's cleanup is `Unsubscribe` itself. The hook's state is `HookState`; its handler and its
  two effects are modelled as `HandleEvent`, `HookMount` and `HookQueryIdChanged`, the last
  also standing for the queryId effect's first run on mount.
- The REST controllers are left out. Their one relevant fact is that favorites `remove` and
  `getAll` never bind a `queryId`. The model allows an absent `queryId` (`Option<string>`)
  everywhere.
- `FavoritesCache.Apply`: invalidation keeps the stale list; the refetch it starts and the list
  that refetch later installs are not modelled.
- `ConnectionManager.SSEConnectionManager.RouteEvent`: each subscription's handler (in the hook, the `onSuccess`/`onError` callbacks) is
  assumed to return. A handler that throws ends the `forEach`, `onmessage` catches the error, and
  the remaining matching subscriptions are not called; the model does not capture that early stop.
- `JsMap.Delete`: its own ensures state membership only. The preserved order is stated by
  `JsMap.DeleteKeepsOrder`, because carrying the filter equality in `Delete`'s ensures makes the
  proofs that unfold `Delete` too costly.

=== FILE: connection_manager.dfy ===
/**
 * The web app's shared connection to the unified stream (`SSEConnectionManager`) and the
 * `useUnifiedSSE` hook around it: one connection for all subscribers, events routed by
 * correlation id and type name, reconnects with exponential back-off up to a cap.
 */
module ConnectionManager {
  import opened Wrappers
  import opened Movies
  import opened Streams
  import opened UnifiedStream
  import JsMap

  const MaxReconnectAttempts := 5
  const ReconnectDelay := 1000

  /** The `readyState` of the browser's `EventSource`. */
  datatype ReadyState = Connecting | Open | Closed

  /**
   * One subscriber: the correlation id it waits for ("" for every id), the type names it
   * wants, and its handler, identified by a number.
   */
  datatype Subscription = Subscription(queryId: string, eventTypes: seq<string>, handler: nat)

  /** `(!sub.queryId || sub.queryId === event.queryId) && sub.eventTypes.includes(event.type)`. */
  predicate Matches(sub: Subscription, event: StreamMessage) {
    (sub.queryId == "" || event.queryId == Some(sub.queryId)) && event.eventType in sub.eventTypes
  }

  function EntryMatches(event: StreamMessage): ((string, Subscription)) -> bool {
    (e: (string, Subscription)) => Matches(e.1, event)
  }

  function EntryId(e: (string, Subscription)): string {
    e.0
  }

  /** The ids of the subscriptions whose handler an event reaches, in the map's order. */
  function MatchingIds(subs: JsMap.Entries<Subscription>, event: StreamMessage): seq<string> {
    FilterMap(EntryMatches(event), EntryId, subs)
  }

  /**
   * Routing reaches a subscription iff its correlation id is empty or equal to the event's and
   * its type list holds the event's type name; the order is the map's and nobody is reached twice.
   */
  lemma {:induction false} MatchingIdsSpec(subs: JsMap.Entries<Subscription>, event: StreamMessage)
    requires JsMap.DistinctKeys(subs)
    ensures forall id :: id in MatchingIds(subs, event) <==>
      JsMap.Has(subs, id) && Matches(JsMap.Get(subs, id).value, event)
    ensures forall i, j :: 0 <= i < j < |MatchingIds(subs, event)| ==>
      JsMap.IndexOf(subs, MatchingIds(subs, event)[i]).Some? && JsMap.IndexOf(subs, MatchingIds(subs, event)[j]).Some? &&
      JsMap.IndexOf(subs, MatchingIds(subs, event)[i]).value < JsMap.IndexOf(subs, MatchingIds(subs, event)[j]).value
  {
    var r := MatchingIds(subs, event);
    var ps := Positions(EntryMatches(event), subs);
    FilterMapSpec(EntryMatches(event), EntryId, subs);
    forall t | 0 <= t < |r| ensures JsMap.IndexOf(subs, r[t]) == Some(ps[t]) {
      JsMap.IndexOfAt(subs, ps[t], r[t]);
    }
    forall id | JsMap.Has(subs, id) && Matches(JsMap.Get(subs, id).value, event) ensures id in r {
      var k := JsMap.IndexOf(subs, id).value;
      assert k in ps;
      var t :| 0 <= t < |ps| && ps[t] == k;
      assert r[t] == id;
    }
  }

  /**
   * A subscription bound to one correlation id never sees an event for another, and a
   * subscription bound to "" sees every event whose type it lists.
   */
  lemma {:induction false} RoutingIsolation(sub: Subscription, event: StreamMessage)
    ensures sub.queryId != "" && event.queryId != Some(sub.queryId) ==> !Matches(sub, event)
    ensures sub.queryId == "" ==> (Matches(sub, event) <==> event.eventType in sub.eventTypes)
  {
  }

  /** `reconnectDelay * Math.pow(2, attempt - 1)`. */
  function Pow2(n: nat): (r: nat)
    ensures r >= 1
  {
    if n == 0 then 1 else 2 * Pow2(n - 1)
  }

  /**
   * `handleReconnect` on the counter: at the cap nothing is scheduled and the counter stays;
   * below it the counter goes up by one and a timer is set for the back-off delay.
   */
  function ReconnectStep(attempts: nat): (nat, Option<nat>) {
    if attempts >= MaxReconnectAttempts then (attempts, None)
    else (attempts + 1, Some(ReconnectDelay * Pow2(attempts)))
  }

  /** The delays scheduled by `n` consecutive connection errors with no successful open between them. */
  function ErrorRun(attempts: nat, n: nat): (r: seq<Option<nat>>)
    ensures |r| == n
    decreases n
  {
    if n == 0 then []
    else [ReconnectStep(attempts).1] + ErrorRun(ReconnectStep(attempts).0, n - 1)
  }

  /**
   * From a fresh counter, consecutive errors schedule 1000, 2000, 4000, 8000 and 16000 ms and
   * then nothing more: the `i`-th error (from 0) waits 1000·2^i ms while i < 5.
   */
  lemma {:induction false} ErrorRunSpec(attempts: nat, n: nat)
    requires attempts <= MaxReconnectAttempts
    ensures forall i :: 0 <= i < n ==>
      ErrorRun(attempts, n)[i] == if attempts + i < MaxReconnectAttempts then Some(ReconnectDelay * Pow2(attempts + i)) else None
    decreases n
  {
    if n > 0 {
      var (a', d) := ReconnectStep(attempts);
      ErrorRunSpec(a', n - 1);
      var run := ErrorRun(attempts, n);
      forall i | 1 <= i < n
        ensures run[i] == if attempts + i < MaxReconnectAttempts then Some(ReconnectDelay * Pow2(attempts + i)) else None
      {
        assert run[i] == ErrorRun(a', n - 1)[i - 1];
      }
    }
  }

  /** From zero attempts, five retries are scheduled at most, whatever the number of errors. */
  lemma {:induction false} AtMostFiveRetries(n: nat)
    ensures forall i :: 0 <= i < n && ErrorRun(0, n)[i].Some? ==> i < MaxReconnectAttempts
    ensures n >= 2 ==> ErrorRun(0, n)[..2] == [Some(1000), Some(2000)]
  {
    ErrorRunSpec(0, n);
  }

  /** `queryId || ""`: the hook subscribes a null or empty correlation id as the wildcard. */
  function BindQueryId(queryId: Option<string>): string {
    queryId.GetOr("")
  }

  /** The hook's state: `data`, `error` and `isLoading`. */
  datatype HookState = HookState(data: Option<seq<Movie>>, error: Option<string>, isLoading: bool)

  /** The hook's handler: a success stores the data and clears the error; anything else stores an error. */
  function HandleEvent(state: HookState, event: StreamMessage): HookState {
    if event.status == Success then HookState(event.data, None, false)
    else HookState(state.data, Some(if event.error.None? || event.error.value == "" then "Unknown error" else event.error.value), false)
  }

  /**
   * The state half of the queryId effect: a truthy id starts loading and clears the error,
   * keeping the data already shown; a null or empty id leaves the state alone.
   */
  function QueryIdChangedState(state: HookState, queryId: Option<string>): (r: HookState)
    ensures queryId.Some? && queryId.value != "" ==> r.isLoading && r.error.None? && r.data == state.data
    ensures queryId.None? || queryId == Some("") ==> r == state
  {
    if queryId.Some? && queryId.value != "" then HookState(state.data, None, true) else state
  }

  /**
   * The loading cycle: a truthy queryId puts the hook into loading without an error, and the
   * next event routed to it ends loading again, with that event's data or a non-empty error.
   */
  lemma {:induction false} LoadingCycle(state: HookState, queryId: string, event: StreamMessage)
    requires queryId != ""
    ensures var loading := QueryIdChangedState(state, Some(queryId));
      loading.isLoading && loading.error.None? && loading.data == state.data &&
      !HandleEvent(loading, event).isLoading &&
      (event.status == Success ==> HandleEvent(loading, event).data == event.data) &&
      (event.status != Success ==> HandleEvent(loading, event).data == state.data &&
                                   HandleEvent(loading, event).error.Some?)
  {
    HandleEventSpec(QueryIdChangedState(state, Some(queryId)), event);
  }

  /**
   * After any event the hook is no longer loading; a success leaves no error, and a failure
   * always leaves a non-empty message, the server's when it sent one.
   */
  lemma {:induction false} HandleEventSpec(state: HookState, event: StreamMessage)
    ensures !HandleEvent(state, event).isLoading
    ensures event.status == Success ==> HandleEvent(state, event).error.None? && HandleEvent(state, event).data == event.data
    ensures event.status != Success ==> HandleEvent(state, event).error.Some? && HandleEvent(state, event).error.value != ""
    ensures event.status != Success && event.error.Some? && event.error.value != "" ==>
      HandleEvent(state, event).error == event.error
  {
  }

  /** `connect()` on the source: an open source stays; otherwise the old one is closed and a new one starts connecting. */
  function Connected(source: Option<ReadyState>): Option<ReadyState> {
    if source == Some(Open) then source else Some(Connecting)
  }

  /** `SSEConnectionManager`. */
  class SSEConnectionManager {
    /** `eventSource`: `None` is null, otherwise the current source's ready state. */
    var eventSource: Option<ReadyState>
    var subscriptions: JsMap.Entries<Subscription>
    var reconnectAttempts: nat
    /** How many `EventSource` objects have been created. */
    ghost var sourcesCreated: nat

    ghost predicate Valid()
      reads this
    {
      && JsMap.DistinctKeys(subscriptions)
      && reconnectAttempts <= MaxReconnectAttempts
      && (|subscriptions| == 0 ==> eventSource.None?)
    }

    constructor()
      ensures Valid() && eventSource.None? && subscriptions == [] && reconnectAttempts == 0 && sourcesCreated == 0
    {
      eventSource := None;
      subscriptions := [];
      reconnectAttempts := 0;
      sourcesCreated := 0;
    }

    /** `connect()`: nothing while open; otherwise close any current source and open a new one. */
    method Connect()
      modifies this
      ensures eventSource == Connected(old(eventSource))
      ensures sourcesCreated == old(sourcesCreated) + (if old(eventSource) == Some(Open) then 0 else 1)
      ensures subscriptions == old(subscriptions) && reconnectAttempts == old(reconnectAttempts)
    {
      if eventSource == Some(Open) {
        return;
      }
      Disconnect();
      eventSource := Some(Connecting);
      sourcesCreated := sourcesCreated + 1;
    }

    /** `disconnect()`: close and forget the current source, if any. */
    method Disconnect()
      modifies this
      ensures eventSource.None?
      ensures subscriptions == old(subscriptions) && reconnectAttempts == old(reconnectAttempts)
      ensures sourcesCreated == old(sourcesCreated)
    {
      if eventSource.Some? {
        eventSource := None;
      }
    }

    /**
     * The current source's `onopen`, which the browser fires only on a connecting source: it
     * is open and the attempt counter is reset.
     */
    method OnOpen()
      requires Valid() && eventSource == Some(Connecting)
      modifies this
      ensures Valid()
      ensures eventSource == Some(Open) && reconnectAttempts == 0
      ensures subscriptions == old(subscriptions) && sourcesCreated == old(sourcesCreated)
    {
      eventSource := Some(Open);
      reconnectAttempts := 0;
    }

    /**
     * The current source's `onerror`: the browser leaves it connecting (retrying by itself) or,
     * on a fatal error, closed; then `handleReconnect` runs. Returns the delay of the timer set.
     * A closed source fires nothing.
     */
    method OnError(fatal: bool) returns (delay: Option<nat>)
      requires Valid() && eventSource.Some? && eventSource != Some(Closed)
      modifies this
      ensures Valid()
      ensures eventSource == Some(if fatal then Closed else Connecting)
      ensures (reconnectAttempts, delay) == ReconnectStep(old(reconnectAttempts))
      ensures subscriptions == old(subscriptions) && sourcesCreated == old(sourcesCreated)
    {
      eventSource := Some(if fatal then Closed else Connecting);
      delay := HandleReconnect();
    }

    /** `handleReconnect()`: count the attempt and schedule a timer, unless the cap is reached. */
    method HandleReconnect() returns (delay: Option<nat>)
      requires Valid()
      modifies this
      ensures Valid()
      ensures (reconnectAttempts, delay) == ReconnectStep(old(reconnectAttempts))
      ensures delay.None? <==> old(reconnectAttempts) == MaxReconnectAttempts
      ensures delay.Some? ==> delay.value == ReconnectDelay * Pow2(reconnectAttempts - 1)
      ensures eventSource == old(eventSource) && subscriptions == old(subscriptions) && sourcesCreated == old(sourcesCreated)
    {
      if reconnectAttempts >= MaxReconnectAttempts {
        return None;
      }
      reconnectAttempts := reconnectAttempts + 1;
      delay := Some(ReconnectDelay * Pow2(reconnectAttempts - 1));
    }

    /** A reconnect timer fires: connect only if somebody is still subscribed. */
    method FireReconnect()
      requires Valid()
      modifies this
      ensures Valid()
      ensures eventSource == if |subscriptions| > 0 then Connected(old(eventSource)) else old(eventSource)
      ensures sourcesCreated == old(sourcesCreated) + (if |subscriptions| > 0 && old(eventSource) != Some(Open) then 1 else 0)
      ensures subscriptions == old(subscriptions) && reconnectAttempts == old(reconnectAttempts)
    {
      if |subscriptions| > 0 {
        Connect();
      }
    }

    /**
     * `routeEvent(event)`: walk the subscriptions in order and call every matching handler.
     * Returns the ids of the subscriptions whose handlers were called, in call order.
     */
    method RouteEvent(event: StreamMessage) returns (called: seq<string>)
      requires Valid()
      ensures called == MatchingIds(subscriptions, event)
      ensures forall id :: id in called <==>
        JsMap.Has(subscriptions, id) && Matches(JsMap.Get(subscriptions, id).value, event)
    {
      called := [];
      var i := 0;
      while i < |subscriptions|
        invariant 0 <= i <= |subscriptions|
        invariant called == MatchingIds(subscriptions[..i], event)
      {
        var (id, subscription) := subscriptions[i];
        var queryIdMatch := subscription.queryId == "" || Some(subscription.queryId) == event.queryId;
        var typeMatch := event.eventType in subscription.eventTypes;
        assert subscriptions[..i + 1][..i] == subscriptions[..i];
        if queryIdMatch && typeMatch {
          called := called + [id];
        }
        i := i + 1;
      }
      assert subscriptions[..i] == subscriptions;
      MatchingIdsSpec(subscriptions, event);
    }

    /** The current source's `onmessage`: a message that does not parse is dropped. */
    method OnMessage(parsed: Option<StreamMessage>) returns (called: seq<string>)
      requires Valid()
      ensures parsed.None? ==> called == []
      ensures parsed.Some? ==> called == MatchingIds(subscriptions, parsed.value)
    {
      called := [];
      if parsed.Some? {
        called := RouteEvent(parsed.value);
      }
    }

    /**
     * `subscribe(...)`: store or replace the entry under the id; connect when the registry
     * size is 1 after the set.
     */
    method Subscribe(subscriptionId: string, queryId: string, eventTypes: seq<string>, handler: nat)
      requires Valid()
      modifies this
      ensures Valid()
      ensures subscriptions == JsMap.Set(old(subscriptions), subscriptionId, Subscription(queryId, eventTypes, handler))
      ensures JsMap.Get(subscriptions, subscriptionId) == Some(Subscription(queryId, eventTypes, handler))
      ensures forall id :: id != subscriptionId ==> JsMap.Get(subscriptions, id) == JsMap.Get(old(subscriptions), id)
      ensures eventSource == if |subscriptions| == 1 then Connected(old(eventSource)) else old(eventSource)
      ensures sourcesCreated == old(sourcesCreated) + (if |subscriptions| == 1 && old(eventSource) != Some(Open) then 1 else 0)
      ensures reconnectAttempts == old(reconnectAttempts)
    {
      subscriptions := JsMap.Set(subscriptions, subscriptionId, Subscription(queryId, eventTypes, handler));
      if |subscriptions| == 1 {
        Connect();
      }
    }

    /** `unsubscribe(id)`: remove exactly that entry; with nobody left, close the connection. */
    method Unsubscribe(subscriptionId: string)
      requires Valid()
      modifies this
      ensures Valid()
      ensures subscriptions == JsMap.Delete(old(subscriptions), subscriptionId)
      ensures !JsMap.Has(subscriptions, subscriptionId)
      ensures forall id :: id != subscriptionId ==> JsMap.Get(subscriptions, id) == JsMap.Get(old(subscriptions), id)
      ensures eventSource == if |subscriptions| == 0 then None else old(eventSource)
      ensures reconnectAttempts == old(reconnectAttempts) && sourcesCreated == old(sourcesCreated)
    {
      JsMap.DeleteSpec(subscriptions, subscriptionId);
      subscriptions := JsMap.Delete(subscriptions, subscriptionId);
      if |subscriptions| == 0 {
        Disconnect();
      }
    }

    /** `updateSubscription(id, queryId)`: rebind an existing entry's correlation id; an unknown id is ignored. */
    method UpdateSubscription(subscriptionId: string, queryId: string)
      requires Valid()
      modifies this
      ensures Valid()
      ensures old(JsMap.Get(subscriptions, subscriptionId)).None? ==> subscriptions == old(subscriptions)
      ensures old(JsMap.Get(subscriptions, subscriptionId)).Some? ==>
        var s := old(JsMap.Get(subscriptions, subscriptionId)).value;
        JsMap.Keys(subscriptions) == old(JsMap.Keys(subscriptions)) &&
        JsMap.Get(subscriptions, subscriptionId) == Some(Subscription(queryId, s.eventTypes, s.handler))
      ensures forall id :: id != subscriptionId ==> JsMap.Get(subscriptions, id) == JsMap.Get(old(subscriptions), id)
      ensures eventSource == old(eventSource) && reconnectAttempts == old(reconnectAttempts)
      ensures sourcesCreated == old(sourcesCreated)
    {
      var subscription := JsMap.Get(subscriptions, subscriptionId);
      if subscription.Some? {
        var s := subscription.value;
        subscriptions := JsMap.Set(subscriptions, subscriptionId, Subscription(queryId, s.eventTypes, s.handler));
      }
    }

    /** The hook's mount effect: subscribe under its id, a null correlation id becoming the wildcard "". */
    method HookMount(subscriptionId: string, queryId: Option<string>, eventTypes: seq<string>, handler: nat)
      requires Valid()
      modifies this
      ensures Valid()
      ensures subscriptions == JsMap.Set(old(subscriptions), subscriptionId, Subscription(BindQueryId(queryId), eventTypes, handler))
      ensures JsMap.Get(subscriptions, subscriptionId) == Some(Subscription(BindQueryId(queryId), eventTypes, handler))
      ensures forall id :: id != subscriptionId ==> JsMap.Get(subscriptions, id) == JsMap.Get(old(subscriptions), id)
      ensures eventSource == if |subscriptions| == 1 then Connected(old(eventSource)) else old(eventSource)
      ensures sourcesCreated == old(sourcesCreated) + (if |subscriptions| == 1 && old(eventSource) != Some(Open) then 1 else 0)
      ensures reconnectAttempts == old(reconnectAttempts)
    {
      Subscribe(subscriptionId, BindQueryId(queryId), eventTypes, handler);
    }

    /**
     * The hook's queryId effect, which also runs once on mount after the subscribe effect: a
     * truthy new id starts loading, clears the error and rebinds the subscription; a null or
     * empty one changes nothing.
     */
    method HookQueryIdChanged(subscriptionId: string, queryId: Option<string>, state: HookState)
      returns (newState: HookState)
      requires Valid()
      modifies this
      ensures Valid()
      ensures newState == QueryIdChangedState(state, queryId)
      ensures queryId.None? || queryId == Some("") ==> subscriptions == old(subscriptions)
      ensures old(JsMap.Get(subscriptions, subscriptionId)).None? ==> subscriptions == old(subscriptions)
      ensures queryId.Some? && queryId.value != "" && old(JsMap.Get(subscriptions, subscriptionId)).Some? ==>
        var s := old(JsMap.Get(subscriptions, subscriptionId)).value;
        JsMap.Keys(subscriptions) == old(JsMap.Keys(subscriptions)) &&
        JsMap.Get(subscriptions, subscriptionId) == Some(Subscription(queryId.value, s.eventTypes, s.handler))
      ensures forall id :: id != subscriptionId ==> JsMap.Get(subscriptions, id) == JsMap.Get(old(subscriptions), id)
      ensures eventSource == old(eventSource) && reconnectAttempts == old(reconnectAttempts)
      ensures sourcesCreated == old(sourcesCreated)
    {
      newState := state;
      if queryId.Some? && queryId.value != "" {
        newState := HookState(state.data, None, true);
        UpdateSubscription(subscriptionId, queryId.value);
      }
    }
  }
}

=== FILE: events.dfy ===
/**
 * The events the workers publish on the NestJS event bus, and the bus itself as an
 * append-only log of published events.
 */
module Events {
  import opened Wrappers
  import opened Movies

  /** A correlation id as it travels with a job; `None` when the REST controller did not bind one. */
  type QueryId = Option<string>

  /** The six operations that end in a terminal event. */
  datatype EventKind =
    | MovieSearch
    | SemanticMovieSearch
    | MovieRecommendations
    | AddFavoriteMovie
    | RemoveFavoriteMovie
    | GetFavoriteMovies

  /**
   * The twelve event classes as one tagged union: `Complete(k, ...)` is the success class of
   * operation `k` (`MovieSearchCompleteEvent`, ..., `AddFavoriteMovieSuccessEvent`, ...) and
   * `Failed(k, ...)` its failure class (`MovieSearchFailedEvent`, ..., `AddFavoriteMovieFailureEvent`,
   * ...). `Other` is any other event that may travel on the same bus.
   */
  datatype BusEvent =
    | Complete(kind: EventKind, queryId: QueryId, response: seq<Movie>, durationMs: nat)
    | Failed(kind: EventKind, queryId: QueryId, message: string)
    | Other(name: string)

  /** The in-process event bus; every publish is appended to the log every stream reads. */
  class EventBus {
    var published: seq<BusEvent>

    constructor()
      ensures published == []
    {
      published := [];
    }

    method Publish(e: BusEvent)
      modifies this
      ensures published == old(published) + [e]
    {
      published := published + [e];
    }
  }
}

=== FILE: favorite_processor.dfy ===
/**
 * The `favorite-movie` queue worker: each job runs one store operation and publishes one
 * success event carrying the job's correlation id and the whole list afterwards.
 */
module FavoriteWorker {
  import opened Wrappers
  import opened Movies
  import opened Events
  import opened FavoritesStore

  const AddJobName := "add-favorite-movie"
  const RemoveJobName := "remove-favorite-movie"
  const GetAllJobName := "get-all-favorite-movies"

  /**
   * A job on the `favorite-movie` queue: its name and the fields of `job.data` the worker reads.
   * `movie` and `imdbID` are absent when the REST controller did not put them in.
   */
  datatype FavoriteJob = FavoriteJob(name: string, queryId: QueryId, movie: Option<Movie>, imdbID: Option<string>)

  /** The store after a job and the events it published. */
  datatype WorkerStep = WorkerStep(store: seq<Movie>, events: seq<BusEvent>)

  /** The operation a job name selects; the `switch` knows three names. */
  function JobKind(name: string): (r: Option<EventKind>)
    ensures r.Some? <==> name in {AddJobName, RemoveJobName, GetAllJobName}
    ensures r.Some? ==> r.value in {AddFavoriteMovie, RemoveFavoriteMovie, GetFavoriteMovies}
    ensures r == Some(AddFavoriteMovie) <==> name == AddJobName
    ensures r == Some(RemoveFavoriteMovie) <==> name == RemoveJobName
    ensures r == Some(GetFavoriteMovies) <==> name == GetAllJobName
  {
    if name == AddJobName then Some(AddFavoriteMovie)
    else if name == RemoveJobName then Some(RemoveFavoriteMovie)
    else if name == GetAllJobName then Some(GetFavoriteMovies)
    else None
  }

  /** `Object.assign({}, movie)`: a copy of the payload, or an object with no fields when it is absent. */
  function PayloadCopy(job: FavoriteJob): Movie {
    job.movie.GetOr(EmptyMovie)
  }

  /**
   * The id handed to `remove`. An absent id filters with `!== undefined`, which keeps every
   * stored movie; it is represented by "", which no stored movie carries.
   */
  function RemoveTarget(job: FavoriteJob): string {
    job.imdbID.GetOr("")
  }

  /** The store's list after the job's command, and the single success event with that list. */
  function Step(store: seq<Movie>, job: FavoriteJob, elapsed: nat): WorkerStep {
    match JobKind(job.name)
    case None => WorkerStep(store, [])
    case Some(kind) =>
      var after :=
        if kind == AddFavoriteMovie then Added(store, PayloadCopy(job))
        else if kind == RemoveFavoriteMovie then Without(store, RemoveTarget(job))
        else store;
      WorkerStep(after, [Complete(kind, job.queryId, after, elapsed)])
  }

  /**
   * Every recognised job publishes exactly one success event of its own class, with the job's
   * queryId and the store's list after the operation; no job ever publishes a failure event;
   * an unknown name changes nothing and publishes nothing; the store invariant is kept.
   */
  lemma {:induction false} StepSpec(store: seq<Movie>, job: FavoriteJob, elapsed: nat)
    requires StoreInvariant(store)
    ensures StoreInvariant(Step(store, job, elapsed).store)
    ensures JobKind(job.name).None? ==> Step(store, job, elapsed) == WorkerStep(store, [])
    ensures JobKind(job.name).Some? ==>
      Step(store, job, elapsed).events ==
        [Complete(JobKind(job.name).value, job.queryId, Step(store, job, elapsed).store, elapsed)]
    ensures forall e :: e in Step(store, job, elapsed).events ==> e.Complete? && e.queryId == job.queryId
    ensures job.name == GetAllJobName ==> Step(store, job, elapsed).store == store
  {
    AddedSpec(store, PayloadCopy(job));
    WithoutKeepsInvariant(store, RemoveTarget(job));
  }

  /** An add job whose payload lacks the movie adds nothing (all required fields are missing). */
  lemma {:induction false} AddWithoutMovie(store: seq<Movie>, queryId: QueryId, imdbID: Option<string>, elapsed: nat)
    requires StoreInvariant(store)
    ensures Step(store, FavoriteJob(AddJobName, queryId, None, imdbID), elapsed).store == store
  {
    AddedSpec(store, EmptyMovie);
  }

  /** A remove job without an id leaves the store as it was. */
  lemma {:induction false} RemoveWithoutId(store: seq<Movie>, queryId: QueryId, movie: Option<Movie>, elapsed: nat)
    requires StoreInvariant(store)
    ensures Step(store, FavoriteJob(RemoveJobName, queryId, movie, None), elapsed).store == store
  {
    WithoutKeepsInvariant(store, "");
  }

  /**
   * Two add jobs for the same complete movie give two success events whose lists both hold
   * that id exactly once, and the second leaves the store as the first left it.
   */
  lemma {:induction false} AddTwice(store: seq<Movie>, m: Movie, q1: QueryId, q2: QueryId, t1: nat, t2: nat)
    requires StoreInvariant(store)
    requires m.imdbID != "" && m.title != "" && m.year != "" && m.poster != ""
    ensures var s1 := Step(store, FavoriteJob(AddJobName, q1, Some(m), None), t1);
      var s2 := Step(s1.store, FavoriteJob(AddJobName, q2, Some(m), None), t2);
      && s2.store == s1.store
      && s1.events == [Complete(AddFavoriteMovie, q1, s1.store, t1)]
      && s2.events == [Complete(AddFavoriteMovie, q2, s1.store, t2)]
      && CountId(s1.store, m.imdbID) == 1
  {
    AddedSpec(store, m);
    AddedIdempotent(store, m);
  }

  /** `FavoriteMovieProcessor`: the worker, holding the store and the event bus. */
  class FavoriteMovieProcessor {
    const favorites: FavoritesService
    const eventBus: EventBus

    ghost predicate Valid()
      reads this, favorites
    {
      favorites.Valid()
    }

    constructor(favorites: FavoritesService, eventBus: EventBus)
      requires favorites.Valid()
      ensures this.favorites == favorites && this.eventBus == eventBus && Valid()
    {
      this.favorites := favorites;
      this.eventBus := eventBus;
    }

    /** `process(job)`: dispatch on the job name; `elapsed` stands for `Date.now() - start`. */
    method Process(job: FavoriteJob, elapsed: nat)
      requires Valid()
      modifies favorites, eventBus
      ensures Valid()
      ensures favorites.favorites == Step(old(favorites.favorites), job, elapsed).store
      ensures eventBus.published == old(eventBus.published) + Step(old(favorites.favorites), job, elapsed).events
    {
      if job.name == AddJobName {
        ProcessAdd(job, elapsed);
      } else if job.name == RemoveJobName {
        ProcessRemove(job, elapsed);
      } else if job.name == GetAllJobName {
        ProcessGetAll(job, elapsed);
      }
    }

    method ProcessAdd(job: FavoriteJob, elapsed: nat)
      requires Valid() && job.name == AddJobName
      modifies favorites, eventBus
      ensures Valid()
      ensures favorites.favorites == Step(old(favorites.favorites), job, elapsed).store
      ensures eventBus.published == old(eventBus.published) + Step(old(favorites.favorites), job, elapsed).events
    {
      var newMovie := PayloadCopy(job);
      favorites.Add(newMovie);
      var favoriteMovies := favorites.GetAll();
      eventBus.Publish(Complete(AddFavoriteMovie, job.queryId, favoriteMovies, elapsed));
    }

    method ProcessRemove(job: FavoriteJob, elapsed: nat)
      requires Valid() && job.name == RemoveJobName
      modifies favorites, eventBus
      ensures Valid()
      ensures favorites.favorites == Step(old(favorites.favorites), job, elapsed).store
      ensures eventBus.published == old(eventBus.published) + Step(old(favorites.favorites), job, elapsed).events
    {
      favorites.Remove(RemoveTarget(job));
      var favoriteMovies := favorites.GetAll();
      eventBus.Publish(Complete(RemoveFavoriteMovie, job.queryId, favoriteMovies, elapsed));
    }

    method ProcessGetAll(job: FavoriteJob, elapsed: nat)
      requires Valid() && job.name == GetAllJobName
      modifies eventBus
      ensures Valid()
      ensures favorites.favorites == Step(old(favorites.favorites), job, elapsed).store
      ensures eventBus.published == old(eventBus.published) + Step(old(favorites.favorites), job, elapsed).events
    {
      var favoriteMovies := favorites.GetAll();
      eventBus.Publish(Complete(GetFavoriteMovies, job.queryId, favoriteMovies, elapsed));
    }
  }
}

=== FILE: favorites_cache.dfy ===
/**
 * The web app's favorites cache reducer: what one message on the favorites stream does to
 * the cached `["favorites"]` list.
 */
module FavoritesCache {
  import opened Wrappers
  import opened Movies

  /**
   * A message as `JSON.parse` leaves it: its `type`, its `movie` (present or not) and its
   * `imdbID` (absent is `None`); `Unparseable` is a message whose parsing or reading throws.
   */
  datatype CacheMessage =
    | Parsed(msgType: string, movie: Option<Movie>, imdbID: Option<string>)
    | Unparseable

  /**
   * What the handler does to the query cache: nothing, `setQueryData` with a new list, or
   * `invalidateQueries`, which marks the entry stale and starts a refetch.
   */
  datatype Decision = NoChange | SetList(list: seq<Movie>) | Invalidate

  /** The handler's branch structure; `cached` is `getQueryData(["favorites"])`. */
  function Decide(msg: CacheMessage, cached: Option<seq<Movie>>): (r: Decision)
    ensures r.SetList? ==> cached.Some? && msg.Parsed? && (msg.msgType == "add" || msg.msgType == "remove")
    ensures r == NoChange <==>
              (msg.Parsed? &&
               (msg.msgType == "heartbeat" ||
                (msg.msgType == "add" && msg.movie.Some? && cached.Some? &&
                 HasId(cached.value, msg.movie.value.imdbID))))
  {
    match msg
    case Unparseable => Invalidate
    case Parsed(msgType, movie, imdbID) =>
      if msgType == "heartbeat" then NoChange
      else if msgType == "add" && movie.Some? then
        if cached.None? then Invalidate
        else if !HasId(cached.value, movie.value.imdbID) then SetList(cached.value + [movie.value])
        else NoChange
      else if msgType == "remove" && imdbID.Some? && imdbID.value != "" then
        if cached.None? then Invalidate
        else SetList(Without(cached.value, imdbID.value))
      else Invalidate
  }

  /**
   * The cached list after a decision. Invalidation only marks the entry stale: until the
   * refetch it starts has answered, `getQueryData` still returns the old list, so the next
   * message is decided against it.
   */
  function Apply(d: Decision, cached: Option<seq<Movie>>): (r: Option<seq<Movie>>)
    ensures d.SetList? ==> r == Some(d.list)
    ensures d.Invalidate? || d.NoChange? ==> r == cached
    ensures r.None? ==> cached.None?
  {
    match d
    case NoChange => cached
    case SetList(list) => Some(list)
    case Invalidate => cached
  }

  /** A heartbeat never touches the cache, whatever it holds. */
  lemma {:induction false} HeartbeatNoChange(movie: Option<Movie>, imdbID: Option<string>, cached: Option<seq<Movie>>)
    ensures Decide(Parsed("heartbeat", movie, imdbID), cached) == NoChange
  {
  }

  /**
   * An add with a movie and a cached list appends the movie exactly when no cached entry has
   * its id, and leaves the list alone otherwise: afterwards the id is cached exactly once.
   */
  lemma {:induction false} AddSpec(m: Movie, imdbID: Option<string>, list: seq<Movie>)
    requires IdsDistinct(list)
    ensures Decide(Parsed("add", Some(m), imdbID), Some(list)) ==
      if HasId(list, m.imdbID) then NoChange else SetList(list + [m])
    ensures var after := Apply(Decide(Parsed("add", Some(m), imdbID), Some(list)), Some(list));
      after.Some? && IdsDistinct(after.value) && CountId(after.value, m.imdbID) == 1 && list <= after.value
  {
    var after := Apply(Decide(Parsed("add", Some(m), imdbID), Some(list)), Some(list)).value;
    if !HasId(list, m.imdbID) {
      assert after[|list|] == m;
      assert IdsDistinct(after);
    }
    assert HasId(after, m.imdbID) by {
      if !HasId(list, m.imdbID) { assert after[|list|] == m; }
    }
    CountIdDistinct(after, m.imdbID);
  }

  /**
   * A remove with a non-empty id and a cached list drops exactly the entries with that id and
   * keeps the others in order.
   */
  lemma {:induction false} RemoveSpec(id: string, movie: Option<Movie>, list: seq<Movie>)
    requires id != ""
    ensures Decide(Parsed("remove", movie, Some(id)), Some(list)) == SetList(Without(list, id))
    ensures !HasId(Without(list, id), id)
    ensures forall m :: m in Without(list, id) <==> m in list && m.imdbID != id
    ensures IdsDistinct(list) ==> IdsDistinct(Without(list, id))
  {
    assert "remove" != "heartbeat" && "remove" != "add" by {
      assert "remove"[0] != "heartbeat"[0] && "remove"[0] != "add"[0];
    }
    WithoutSpec(list, id);
    if IdsDistinct(list) {
      WithoutKeepsIdsDistinct(list, id);
    }
  }

  /** Without a cached list, an add or remove only invalidates; it never writes a list. */
  lemma {:induction false} NoCacheInvalidates(msgType: string, movie: Option<Movie>, imdbID: Option<string>)
    requires msgType == "add" || msgType == "remove"
    ensures Decide(Parsed(msgType, movie, imdbID), None) == Invalidate
  {
  }

  /**
   * Any other shape invalidates: an unknown type, an add without a movie, a remove without a
   * (non-empty) id, or a message that cannot be parsed.
   */
  lemma {:induction false} OtherShapesInvalidate(msg: CacheMessage, cached: Option<seq<Movie>>)
    requires msg.Unparseable? ||
      (msg.msgType != "heartbeat" &&
       !(msg.msgType == "add" && msg.movie.Some?) &&
       !(msg.msgType == "remove" && msg.imdbID.Some? && msg.imdbID.value != ""))
    ensures Decide(msg, cached) == Invalidate
  {
  }

  /** Whatever arrives, a cached list with distinct ids keeps distinct ids. */
  lemma {:induction false} DecideKeepsIdsDistinct(msg: CacheMessage, cached: Option<seq<Movie>>)
    requires cached.Some? ==> IdsDistinct(cached.value)
    ensures var after := Apply(Decide(msg, cached), cached); after.Some? ==> IdsDistinct(after.value)
  {
    if msg.Parsed? && cached.Some? {
      if msg.msgType == "add" && msg.movie.Some? {
        AddSpec(msg.movie.value, msg.imdbID, cached.value);
      } else if msg.msgType == "remove" && msg.imdbID.Some? && msg.imdbID.value != "" {
        WithoutKeepsIdsDistinct(cached.value, msg.imdbID.value);
      }
    }
  }
}

=== FILE: favorites_service.dfy ===
/** The in-memory favorites store of the back end (`FavoritesService`). */
module FavoritesStore {
  import opened Movies
  import opened Streams

  /** The fields `add` insists on, in the order it reports them; `type` is not among them. */
  const RequiredFields: seq<string> := ["imdbID", "title", "year", "poster"]

  /** `movie[field]` for the field names of a movie ("" for any other name). */
  function Field(m: Movie, name: string): string {
    if name == "imdbID" then m.imdbID
    else if name == "title" then m.title
    else if name == "year" then m.year
    else if name == "poster" then m.poster
    else if name == "type" then m.kind
    else ""
  }

  function IsMissingIn(m: Movie): string -> bool {
    name => Field(m, name) == ""
  }

  function SameName(name: string): string {
    name
  }

  /** `requiredFields.filter(field => !movie[field])`. */
  function MissingFields(m: Movie): seq<string> {
    FilterMap(IsMissingIn(m), SameName, RequiredFields)
  }

  /** What the store keeps true: every stored movie has an id, and ids are pairwise distinct. */
  ghost predicate StoreInvariant(list: seq<Movie>) {
    IdsDistinct(list) && forall i :: 0 <= i < |list| ==> list[i].imdbID != ""
  }

  /** The list after `add(m)`: unchanged when a field is missing or the id is present, else `m` appended. */
  function Added(list: seq<Movie>, m: Movie): seq<Movie> {
    if |MissingFields(m)| > 0 then list
    else if HasId(list, m.imdbID) then list
    else list + [m]
  }

  /** The report on one field name. */
  lemma {:induction false} MissingOne(m: Movie, name: string)
    ensures FilterMap(IsMissingIn(m), SameName, [name]) == if Field(m, name) == "" then [name] else []
  {
    assert [name][..0] == [];
  }

  /** The report, spelled out field by field in the order of `RequiredFields`. */
  lemma {:induction false} MissingFieldsList(m: Movie)
    ensures MissingFields(m) == (if m.imdbID == "" then ["imdbID"] else []) + (if m.title == "" then ["title"] else [])
      + (if m.year == "" then ["year"] else []) + (if m.poster == "" then ["poster"] else [])
  {
    var k := IsMissingIn(m);
    assert RequiredFields == ["imdbID"] + ["title"] + ["year"] + ["poster"];
    FilterMapAppend(k, SameName, ["imdbID"] + ["title"] + ["year"], ["poster"]);
    FilterMapAppend(k, SameName, ["imdbID"] + ["title"], ["year"]);
    FilterMapAppend(k, SameName, ["imdbID"], ["title"]);
    MissingOne(m, "imdbID");
    MissingOne(m, "title");
    MissingOne(m, "year");
    MissingOne(m, "poster");
    assert "poster" != "imdbID" by { assert "poster"[0] != "imdbID"[0]; }
    assert Field(m, "imdbID") == m.imdbID && Field(m, "title") == m.title;
    assert Field(m, "year") == m.year && Field(m, "poster") == m.poster;
  }

  /** A name is reported iff it is one of the required fields and that field is empty. */
  lemma {:induction false} MissingFieldsMembers(m: Movie)
    ensures forall f :: f in MissingFields(m) <==> f in RequiredFields && Field(m, f) == ""
  {
    FilterMapSpec(IsMissingIn(m), SameName, RequiredFields);
    var ps := Positions(IsMissingIn(m), RequiredFields);
    forall f | f in RequiredFields && Field(m, f) == "" ensures f in MissingFields(m) {
      var k :| 0 <= k < |RequiredFields| && RequiredFields[k] == f;
      assert k in ps;
      var i :| 0 <= i < |ps| && ps[i] == k;
      assert MissingFields(m)[i] == f;
    }
  }

  /**
   * The missing-field report is empty iff imdbID, title, year and poster are all set, and it
   * never names `type`.
   */
  lemma {:induction false} MissingFieldsSpec(m: Movie)
    ensures MissingFields(m) == [] <==> m.imdbID != "" && m.title != "" && m.year != "" && m.poster != ""
    ensures "type" !in MissingFields(m)
  {
    MissingFieldsList(m);
  }

  /**
   * An accepted movie is in the list afterwards exactly once, an accepted add appends and
   * changes nothing else, and a rejected one (missing field or known id) changes nothing.
   */
  lemma {:induction false} AddedSpec(list: seq<Movie>, m: Movie)
    requires StoreInvariant(list)
    ensures StoreInvariant(Added(list, m))
    ensures list <= Added(list, m) && |Added(list, m)| <= |list| + 1
    ensures m.imdbID != "" && m.title != "" && m.year != "" && m.poster != "" ==>
      HasId(Added(list, m), m.imdbID) && CountId(Added(list, m), m.imdbID) == 1
    ensures m.imdbID == "" || m.title == "" || m.year == "" || m.poster == "" || HasId(list, m.imdbID) ==>
      Added(list, m) == list
    ensures Added(list, m) != list ==> Added(list, m) == list + [m]
  {
    var complete := m.imdbID != "" && m.title != "" && m.year != "" && m.poster != "";
    AddedCases(list, m);
    if complete && !HasId(list, m.imdbID) {
      AppendNewId(list, m);
    } else if complete {
      CountIdDistinct(list, m.imdbID);
    }
  }

  /** `add` appends exactly when every required field is set and the id is not yet stored. */
  lemma {:induction false} AddedCases(list: seq<Movie>, m: Movie)
    ensures Added(list, m) ==
      if m.imdbID != "" && m.title != "" && m.year != "" && m.poster != "" && !HasId(list, m.imdbID)
      then list + [m] else list
  {
    MissingFieldsSpec(m);
  }

  /** Appending a movie with a new, non-empty id keeps the invariant and stores that id once. */
  lemma {:induction false} AppendNewId(list: seq<Movie>, m: Movie)
    requires StoreInvariant(list) && m.imdbID != "" && !HasId(list, m.imdbID)
    ensures StoreInvariant(list + [m])
    ensures HasId(list + [m], m.imdbID) && CountId(list + [m], m.imdbID) == 1
  {
    var r := list + [m];
    assert r[|list|] == m;
    forall i, j | 0 <= i < j < |r| ensures r[i].imdbID != r[j].imdbID {
      assert r[i] == list[i];
      if j < |list| {
        assert r[j] == list[j];
      }
    }
    CountIdDistinct(r, m.imdbID);
  }

  /** Adding the same movie twice is the same as adding it once. */
  lemma {:induction false} AddedIdempotent(list: seq<Movie>, m: Movie)
    ensures Added(Added(list, m), m) == Added(list, m)
  {
    if |MissingFields(m)| == 0 && !HasId(list, m.imdbID) {
      assert Added(list, m)[|list|] == m;
    }
  }

  /** Removing what an accepted add just appended gives back the list before the add. */
  lemma {:induction false} AddedThenRemoved(list: seq<Movie>, m: Movie)
    requires StoreInvariant(list)
    ensures !HasId(Without(Added(list, m), m.imdbID), m.imdbID)
    ensures !HasId(list, m.imdbID) ==> Without(Added(list, m), m.imdbID) == list
  {
    WithoutSpec(Added(list, m), m.imdbID);
    if !HasId(list, m.imdbID) {
      WithoutNothing(list, m.imdbID);
      FilterMapAppend(OtherThan(m.imdbID), Same, list, [m]);
    }
  }

  /** Removal keeps the store invariant, and removing the empty id (never stored) is a no-op. */
  lemma {:induction false} WithoutKeepsInvariant(list: seq<Movie>, id: string)
    requires StoreInvariant(list)
    ensures StoreInvariant(Without(list, id))
    ensures Without(list, "") == list
  {
    WithoutKeepsIdsDistinct(list, id);
    WithoutSpec(list, id);
    WithoutSpec(list, "");
  }

  /** `FavoritesService`: the favorites array and the three operations on it. */
  class FavoritesService {
    var favorites: seq<Movie>

    ghost predicate Valid()
      reads this
    {
      StoreInvariant(favorites)
    }

    constructor()
      ensures Valid() && favorites == []
    {
      favorites := [];
    }

    /** `add(movie)`: validate the required fields, skip a known id, otherwise push. */
    method Add(movie: Movie)
      requires Valid()
      modifies this
      ensures Valid()
      ensures favorites == Added(old(favorites), movie)
    {
      AddedSpec(favorites, movie);
      var missing := MissingFields(movie);
      if |missing| > 0 {
        return;
      }
      if HasId(favorites, movie.imdbID) {
        return;
      }
      favorites := favorites + [movie];
    }

    /** `remove(imdbID)`: keep every entry with another id. */
    method Remove(imdbID: string)
      requires Valid()
      modifies this
      ensures Valid()
      ensures favorites == Without(old(favorites), imdbID)
    {
      WithoutKeepsInvariant(favorites, imdbID);
      favorites := Without(favorites, imdbID);
    }

    /** `getAll()`: the current list, store unchanged. */
    method GetAll() returns (r: seq<Movie>)
      requires Valid()
      ensures IdsDistinct(r)
      ensures r == favorites
    {
      r := favorites;
    }
  }
}

=== FILE: feature_streams.dfy ===
/**
 * The six per-feature server-sent-events endpoints (`/movie/stream/...` and
 * `/favorite-movie/stream/...`): each forwards only its own operation's success and failure
 * classes, optionally narrowed to one correlation id, as a status message without the id.
 */
module FeatureStreams {
  import opened Wrappers
  import opened Movies
  import opened Events
  import opened Streams

  /** The `data` object of each message: `{status, results, duration}` or `{status, errorMessage}`. */
  datatype FeatureMessage =
    | Succeeded(results: seq<Movie>, duration: nat)
    | FailedWith(errorMessage: string)

  /** `ofType(SuccessClass, FailureClass)` for operation `kind`. */
  predicate OfType(kind: EventKind, e: BusEvent) {
    (e.Complete? || e.Failed?) && e.kind == kind
  }

  /** `!queryId || event.queryId === queryId`: an absent or empty parameter lets everything through. */
  predicate QueryIdPasses(param: QueryId, e: BusEvent) {
    param.None? || param == Some("") || ((e.Complete? || e.Failed?) && e.queryId == param)
  }

  function Passes(kind: EventKind, param: QueryId): BusEvent -> bool {
    e => OfType(kind, e) && QueryIdPasses(param, e)
  }

  /**
   * The ternary mapper: the success class becomes `Succeeded`, anything else `FailedWith`.
   * Only the two classes of the endpoint reach it, so the `Other` case never occurs.
   */
  function ToMessage(e: BusEvent): FeatureMessage {
    match e
    case Complete(_, _, response, durationMs) => Succeeded(response, durationMs)
    case Failed(_, _, message) => FailedWith(message)
    case Other(_) => FailedWith("")
  }

  /** One endpoint: the bus piped through `ofType`, the correlation filter and the mapper. */
  function Endpoint(kind: EventKind, param: QueryId, events: seq<BusEvent>): seq<FeatureMessage> {
    FilterMap(Passes(kind, param), ToMessage, events)
  }

  /** `GET /movie/stream/search`. */
  function MovieSearchStream(param: QueryId, events: seq<BusEvent>): seq<FeatureMessage> {
    Endpoint(MovieSearch, param, events)
  }

  /** `GET /movie/stream/semantic-search`. */
  function SemanticMovieSearchStream(param: QueryId, events: seq<BusEvent>): seq<FeatureMessage> {
    Endpoint(SemanticMovieSearch, param, events)
  }

  /** `GET /movie/stream/recommendations`. */
  function MovieRecommendationsStream(param: QueryId, events: seq<BusEvent>): seq<FeatureMessage> {
    Endpoint(MovieRecommendations, param, events)
  }

  /** `GET /favorite-movie/stream/add`. */
  function AddFavoriteMovieStream(param: QueryId, events: seq<BusEvent>): seq<FeatureMessage> {
    Endpoint(AddFavoriteMovie, param, events)
  }

  /** `GET /favorite-movie/stream/remove`. */
  function RemoveFavoriteMovieStream(param: QueryId, events: seq<BusEvent>): seq<FeatureMessage> {
    Endpoint(RemoveFavoriteMovie, param, events)
  }

  /** `GET /favorite-movie/stream/get-all`. */
  function GetAllFavoriteMoviesStream(param: QueryId, events: seq<BusEvent>): seq<FeatureMessage> {
    Endpoint(GetFavoriteMovies, param, events)
  }

  /** Message `m` is what the endpoint of `kind` sends for event `e`. */
  ghost predicate Describes(kind: EventKind, param: QueryId, m: FeatureMessage, e: BusEvent) {
    && OfType(kind, e)
    && (param.Some? && param != Some("") ==> e.queryId == param)
    && (m.Succeeded? <==> e.Complete?)
    && (e.Complete? ==> m == Succeeded(e.response, e.durationMs))
    && (e.Failed? ==> m == FailedWith(e.message))
  }

  /**
   * An endpoint sends exactly one message per event of its own two classes that passes the
   * correlation filter, in bus order, and nothing for any other event.
   */
  lemma {:induction false} EndpointSpec(kind: EventKind, param: QueryId, events: seq<BusEvent>)
    ensures |Endpoint(kind, param, events)| == |Positions(Passes(kind, param), events)|
    ensures StrictlyIncreasing(Positions(Passes(kind, param), events))
    ensures forall k :: k in Positions(Passes(kind, param), events) <==>
      0 <= k < |events| && OfType(kind, events[k]) && QueryIdPasses(param, events[k])
    ensures forall i :: 0 <= i < |Endpoint(kind, param, events)| ==>
      Positions(Passes(kind, param), events)[i] < |events| &&
      Describes(kind, param, Endpoint(kind, param, events)[i], events[Positions(Passes(kind, param), events)[i]])
  {
    FilterMapSpec(Passes(kind, param), ToMessage, events);
  }

  /** An absent and an empty `queryId` parameter behave alike: neither narrows the stream. */
  lemma {:induction false} EmptyParamIsAbsent(kind: EventKind, events: seq<BusEvent>)
    ensures Endpoint(kind, Some(""), events) == Endpoint(kind, None, events)
  {
    if |events| > 0 {
      EmptyParamIsAbsent(kind, events[..|events| - 1]);
    }
  }

  /**
   * The remove endpoint sends `Succeeded` exactly for `RemoveFavoriteMovieSuccessEvent` and
   * `FailedWith` exactly for `RemoveFavoriteMovieFailureEvent`: the mapping follows the class.
   */
  lemma {:induction false} RemoveStreamByClass(param: QueryId, events: seq<BusEvent>, i: nat)
    requires i < |RemoveFavoriteMovieStream(param, events)|
    ensures i < |Positions(Passes(RemoveFavoriteMovie, param), events)|
    ensures Positions(Passes(RemoveFavoriteMovie, param), events)[i] < |events|
    ensures var e := events[Positions(Passes(RemoveFavoriteMovie, param), events)[i]];
      && (RemoveFavoriteMovieStream(param, events)[i].Succeeded? <==> e.Complete? && e.kind == RemoveFavoriteMovie)
      && (RemoveFavoriteMovieStream(param, events)[i].FailedWith? <==> e.Failed? && e.kind == RemoveFavoriteMovie)
  {
    EndpointSpec(RemoveFavoriteMovie, param, events);
  }
}

=== FILE: js_map.dfy ===
/**
 * The JavaScript `Map<string, V>` used by the original program: a finite map that remembers the
 * order in which keys were first inserted. It is represented by its entries in
 * iteration order; the keys of a well-formed map are pairwise distinct.
 */
module JsMap {
  import opened Wrappers
  import Streams

  type Entries<V> = seq<(string, V)>

  /** The keys in iteration order (`Array.from(m.keys())`). */
  function Keys<V>(m: Entries<V>): seq<string> {
    seq(|m|, i requires 0 <= i < |m| => m[i].0)
  }

  /** The values in iteration order (`Array.from(m.values())`). */
  function Values<V>(m: Entries<V>): seq<V> {
    seq(|m|, i requires 0 <= i < |m| => m[i].1)
  }

  ghost predicate DistinctKeys<V>(m: Entries<V>) {
    forall i, j :: 0 <= i < j < |m| ==> m[i].0 != m[j].0
  }

  /** The position of key `k`, if it is present. */
  function IndexOf<V>(m: Entries<V>, k: string): (r: Option<nat>)
    ensures r.Some? ==> r.value < |m| && m[r.value].0 == k
    ensures r.Some? ==> forall i :: 0 <= i < r.value ==> m[i].0 != k
    ensures r.None? <==> forall i :: 0 <= i < |m| ==> m[i].0 != k
    ensures r.Some? && DistinctKeys(m) ==> forall i :: 0 <= i < |m| && m[i].0 == k ==> i == r.value
  {
    if |m| == 0 then None
    else if m[0].0 == k then Some(0)
    else
      match IndexOf(m[1..], k)
      case None => None
      case Some(i) => Some(i + 1)
  }

  predicate Has<V>(m: Entries<V>, k: string) {
    IndexOf(m, k).Some?
  }

  /** `m.get(k)`. */
  function Get<V>(m: Entries<V>, k: string): Option<V> {
    match IndexOf(m, k)
    case Some(i) => Some(m[i].1)
    case None => None
  }

  /** `m.set(k, v)`: an existing key keeps its position and takes the new value; a new key goes last. */
  function Set<V>(m: Entries<V>, k: string, v: V): (r: Entries<V>)
    ensures DistinctKeys(m) ==> DistinctKeys(r)
    ensures Has(m, k) ==> Keys(r) == Keys(m)
    ensures !Has(m, k) ==> Keys(r) == Keys(m) + [k]
    ensures DistinctKeys(m) ==> Get(r, k) == Some(v)
    ensures forall k' :: k' != k ==> Get(r, k') == Get(m, k')
  {
    match IndexOf(m, k)
    case Some(i) =>
      var r := m[i := (k, v)];
      assert forall k' :: k' != k ==> IndexOf(r, k') == IndexOf(m, k') by {
        forall k' | k' != k ensures IndexOf(r, k') == IndexOf(m, k') {
          IndexOfUpdate(m, i, k, v, k');
        }
      }
      assert Keys(r) == Keys(m);
      assert DistinctKeys(m) ==> IndexOf(r, k) == Some(i) by {
        if DistinctKeys(m) {
          assert DistinctKeys(r);
          IndexOfAt(r, i, k);
        }
      }
      r
    case None =>
      var r := m + [(k, v)];
      assert forall k' :: k' != k ==> IndexOf(r, k') == IndexOf(m, k') by {
        forall k' | k' != k ensures IndexOf(r, k') == IndexOf(m, k') {
          IndexOfAppend(m, (k, v), k');
        }
      }
      assert DistinctKeys(m) ==> DistinctKeys(r);
      assert DistinctKeys(m) ==> IndexOf(r, k) == Some(|m|) by {
        if DistinctKeys(m) {
          assert DistinctKeys(r);
          IndexOfAt(r, |m|, k);
        }
      }
      r
  }

  /** The test `Map.delete` leaves an entry standing by. */
  function KeyIsNot<V>(k: string): ((string, V)) -> bool {
    (e: (string, V)) => e.0 != k
  }

  function SameEntry<V>(e: (string, V)): (string, V) {
    e
  }

  /** `m.delete(k)`: every other entry keeps its value and its relative order. */
  function Delete<V>(m: Entries<V>, k: string): (r: Entries<V>)
    ensures |r| <= |m|
    ensures forall i :: 0 <= i < |r| ==> r[i] in m && r[i].0 != k
    ensures forall i :: 0 <= i < |m| && m[i].0 != k ==> m[i] in r
  {
    if |m| == 0 then []
    else if m[0].0 == k then Delete(m[1..], k)
    else [m[0]] + Delete(m[1..], k)
  }

  /**
   * `Delete` is the order-preserving filter of the entries by key: with `Streams.FilterMapSpec`,
   * entry `i` of the result is the `i`-th entry of `m` with another key.
   */
  lemma {:induction false} DeleteKeepsOrder<V>(m: Entries<V>, k: string)
    ensures Delete(m, k) == Streams.FilterMap(KeyIsNot<V>(k), SameEntry<V>, m)
  {
    if |m| > 0 {
      DeleteKeepsOrder(m[1..], k);
      assert m == [m[0]] + m[1..];
      Streams.FilterMapAppend(KeyIsNot<V>(k), SameEntry<V>, [m[0]], m[1..]);
      assert [m[0]][..0] == [];
    }
  }

  /** What `Delete` does to lookups, to the size and to the key order. */
  lemma {:induction false} DeleteSpec<V>(m: Entries<V>, k: string)
    requires DistinctKeys(m)
    ensures DistinctKeys(Delete(m, k))
    ensures !Has(Delete(m, k), k)
    ensures |Delete(m, k)| == if Has(m, k) then |m| - 1 else |m|
    ensures !Has(m, k) ==> Delete(m, k) == m
    ensures forall k' :: k' != k ==> Get(Delete(m, k), k') == Get(m, k')
  {
    DeleteShape(m, k);
    forall k' | k' != k ensures Get(Delete(m, k), k') == Get(m, k') {
      DeleteGet(m, k, k');
    }
  }

  lemma {:induction false} DeleteShape<V>(m: Entries<V>, k: string)
    requires DistinctKeys(m)
    ensures DistinctKeys(Delete(m, k))
    ensures !Has(Delete(m, k), k)
    ensures |Delete(m, k)| == if Has(m, k) then |m| - 1 else |m|
    ensures !Has(m, k) ==> Delete(m, k) == m
  {
    if |m| > 0 {
      var rest := Delete(m[1..], k);
      DeleteShape(m[1..], k);
      if m[0].0 == k {
        assert !Has(m[1..], k);
      } else {
        var r := [m[0]] + rest;
        assert r[1..] == rest;
        forall i, j | 0 <= i < j < |r| ensures r[i].0 != r[j].0 {
          if i == 0 {
            assert r[j] in m[1..];
          }
        }
      }
    }
  }

  lemma {:induction false} DeleteGet<V>(m: Entries<V>, k: string, k': string)
    requires k' != k
    ensures Get(Delete(m, k), k') == Get(m, k')
  {
    if |m| > 0 {
      var rest := Delete(m[1..], k);
      DeleteGet(m[1..], k, k');
      if m[0].0 == k {
        assert Delete(m, k) == rest;
        GetTail(m, k');
      } else if m[0].0 != k' {
        var r := [m[0]] + rest;
        assert Delete(m, k) == r;
        assert r[1..] == rest;
        GetTail(r, k');
        GetTail(m, k');
      }
    }
  }

  /** A head entry with another key does not affect a lookup. */
  lemma {:induction false} GetTail<V>(m: Entries<V>, k: string)
    requires |m| > 0 && m[0].0 != k
    ensures Get(m, k) == Get(m[1..], k)
  {
  }

  lemma {:induction false} IndexOfAt<V>(m: Entries<V>, i: nat, k: string)
    requires DistinctKeys(m) && i < |m| && m[i].0 == k
    ensures IndexOf(m, k) == Some(i)
  {
    assert IndexOf(m, k).Some?;
  }

  lemma {:induction false} IndexOfUpdate<V>(m: Entries<V>, i: nat, k: string, v: V, k': string)
    requires i < |m| && m[i].0 == k && k' != k
    ensures IndexOf(m[i := (k, v)], k') == IndexOf(m, k')
  {
    if i > 0 {
      assert m[i := (k, v)][1..] == m[1..][i - 1 := (k, v)];
      IndexOfUpdate(m[1..], i - 1, k, v, k');
    }
  }

  lemma {:induction false} IndexOfAppend<V>(m: Entries<V>, e: (string, V), k': string)
    requires e.0 != k' || Has(m, k')
    ensures IndexOf(m + [e], k') == IndexOf(m, k')
  {
    if |m| > 0 && m[0].0 != k' {
      assert (m + [e])[1..] == m[1..] + [e];
      IndexOfAppend(m[1..], e, k');
    }
  }

  lemma {:induction false} HasIffInKeys<V>(m: Entries<V>, k: string)
    ensures Has(m, k) <==> k in Keys(m)
  {
    if k in Keys(m) {
      var i :| 0 <= i < |m| && Keys(m)[i] == k;
      assert m[i].0 == k;
    }
    if Has(m, k) {
      assert Keys(m)[IndexOf(m, k).value] == k;
    }
  }

  /** `new Map(entries)`: the entries are set one after another, left to right. */
  function FromEntries<V>(es: seq<(string, V)>): Entries<V> {
    if |es| == 0 then []
    else Set(FromEntries(es[..|es| - 1]), es[|es| - 1].0, es[|es| - 1].1)
  }

  /** The position of the first entry of `es` with key `k` (`|es|` when there is none). */
  function FirstIndex<V>(es: seq<(string, V)>, k: string): nat {
    match IndexOf(es, k)
    case Some(i) => i
    case None => |es|
  }

  /** Entry `i` is the last entry of `es` with its key. */
  ghost predicate IsLastWithKey<V>(es: seq<(string, V)>, i: int) {
    0 <= i < |es| && forall j :: i < j < |es| ==> es[j].0 != es[i].0
  }

  /** Keys of `new Map(entries)`: distinct, exactly the keys of the entries, values drawn from them. */
  lemma {:induction false} FromEntriesKeys<V>(es: seq<(string, V)>)
    ensures DistinctKeys(FromEntries(es))
    ensures forall k :: Has(FromEntries(es), k) <==> Has(es, k)
    ensures forall i :: 0 <= i < |FromEntries(es)| ==> FromEntries(es)[i] in es
  {
    if |es| > 0 {
      var n := |es|;
      var p := es[..n - 1];
      var (k, v) := es[n - 1];
      assert es == p + [(k, v)];
      var prev := FromEntries(p);
      FromEntriesKeys(p);
      var r := FromEntries(es);
      assert r == Set(prev, k, v);
      forall k' | k' != k || Has(p, k') ensures IndexOf(es, k') == IndexOf(p, k') {
        IndexOfAppend(p, (k, v), k');
      }
      assert Has(es, k);
      forall k' ensures Has(r, k') <==> Has(es, k') {
        HasIffInKeys(r, k');
        HasIffInKeys(prev, k');
      }
      forall i | 0 <= i < |r| ensures r[i] in es {
        if i < |prev| && r[i] != (k, v) {
          assert r[i] == prev[i];
          assert prev[i] in p;
        }
      }
    }
  }

  /** Setting the next entry keeps the keys in the order of their first occurrence. */
  lemma {:induction false} FromEntriesOrderStep<V>(p: seq<(string, V)>, k: string, v: V, i: nat, j: nat)
    requires forall k' :: Has(FromEntries(p), k') <==> Has(p, k')
    requires forall a, b :: 0 <= a < b < |FromEntries(p)| ==>
      FirstIndex(p, FromEntries(p)[a].0) < FirstIndex(p, FromEntries(p)[b].0)
    requires i < j < |Set(FromEntries(p), k, v)|
    ensures FirstIndex(p + [(k, v)], Set(FromEntries(p), k, v)[i].0) <
      FirstIndex(p + [(k, v)], Set(FromEntries(p), k, v)[j].0)
  {
    var prev := FromEntries(p);
    var r := Set(prev, k, v);
    assert Keys(r)[i] == r[i].0 && Keys(r)[j] == r[j].0;
    assert Keys(prev)[i] == prev[i].0;
    assert Has(prev, prev[i].0);
    IndexOfAppend(p, (k, v), prev[i].0);
    if Has(prev, k) || j < |prev| {
      assert Keys(prev)[j] == prev[j].0;
      assert Has(prev, prev[j].0);
      IndexOfAppend(p, (k, v), prev[j].0);
    } else {
      assert r[j].0 == k && !Has(p, k);
      assert (p + [(k, v)])[|p|].0 == k;
      assert forall a :: 0 <= a < |p| ==> (p + [(k, v)])[a].0 != k;
    }
  }

  /** Keys of `new Map(entries)` come in the order of their first occurrence. */
  lemma {:induction false} FromEntriesOrder<V>(es: seq<(string, V)>)
    ensures forall i, j :: 0 <= i < j < |FromEntries(es)| ==>
      FirstIndex(es, FromEntries(es)[i].0) < FirstIndex(es, FromEntries(es)[j].0)
  {
    if |es| > 0 {
      var n := |es|;
      var p := es[..n - 1];
      var (k, v) := es[n - 1];
      assert es == p + [(k, v)];
      FromEntriesOrder(p);
      FromEntriesKeys(p);
      assert FromEntries(es) == Set(FromEntries(p), k, v);
      forall i, j | 0 <= i < j < |FromEntries(es)|
        ensures FirstIndex(es, FromEntries(es)[i].0) < FirstIndex(es, FromEntries(es)[j].0)
      {
        FromEntriesOrderStep(p, k, v, i, j);
      }
    }
  }

  /** Each key of `new Map(entries)` holds the value of its last occurrence. */
  lemma {:induction false} FromEntriesLastValue<V>(es: seq<(string, V)>)
    ensures forall i :: IsLastWithKey(es, i) ==> Get(FromEntries(es), es[i].0) == Some(es[i].1)
  {
    if |es| > 0 {
      var n := |es|;
      var p := es[..n - 1];
      var (k, v) := es[n - 1];
      assert es == p + [(k, v)];
      FromEntriesLastValue(p);
      FromEntriesKeys(p);
      var prev := FromEntries(p);
      var r := Set(prev, k, v);
      assert FromEntries(es) == r;
      forall i | IsLastWithKey(es, i) ensures Get(r, es[i].0) == Some(es[i].1) {
        if i < n - 1 {
          assert es[i] == p[i];
          assert IsLastWithKey(p, i);
          assert es[i].0 != k;
          assert Get(r, es[i].0) == Get(prev, es[i].0);
        }
      }
    }
  }

  /**
   * What `new Map(entries)` holds: the keys are distinct and are exactly the keys of the
   * entries; they come in the order of their FIRST occurrence; and each key carries the
   * value of its LAST occurrence.
   */
  lemma {:induction false} FromEntriesSpec<V>(es: seq<(string, V)>)
    ensures DistinctKeys(FromEntries(es))
    ensures forall k :: Has(FromEntries(es), k) <==> Has(es, k)
    ensures forall i :: 0 <= i < |FromEntries(es)| ==> FromEntries(es)[i] in es
    ensures forall i, j :: 0 <= i < j < |FromEntries(es)| ==>
      FirstIndex(es, FromEntries(es)[i].0) < FirstIndex(es, FromEntries(es)[j].0)
    ensures forall i :: IsLastWithKey(es, i) ==> Get(FromEntries(es), es[i].0) == Some(es[i].1)
  {
    FromEntriesKeys(es);
    FromEntriesOrder(es);
    FromEntriesLastValue(es);
  }
}

=== FILE: movie_dto.dfy ===
/**
 * The validation rules of the favorites request body (`CreateFavoriteDto` with its nested
 * `MovieDto`): string fields, the `imdbID` and `year` patterns, and the object wrapper.
 */
module MovieDto {
  import opened Wrappers
  import JsMap

  /** A parsed JSON value as the validators see it. */
  datatype Json =
    | JString(s: string)
    | JNumber(n: int)
    | JBool(b: bool)
    | JNull
    | JArray(items: seq<Json>)
    | JObject(fields: JsMap.Entries<Json>)

  predicate IsDigit(c: char) {
    '0' <= c <= '9'
  }

  /** The number of consecutive ASCII digits in `s` from position `from` on. */
  function DigitRun(s: string, from: nat): (r: nat)
    requires from <= |s|
    ensures from + r <= |s|
    ensures forall k :: from <= k < from + r ==> IsDigit(s[k])
    ensures from + r < |s| ==> !IsDigit(s[from + r])
    decreases |s| - from
  {
    if from < |s| && IsDigit(s[from]) then 1 + DigitRun(s, from + 1) else 0
  }

  /** `/^tt\d{7,8}$/`: "tt", then a run of digits reaching the end of the string, of length 7 or 8. */
  predicate MatchesImdbId(s: string) {
    |s| >= 2 && s[0] == 't' && s[1] == 't' && 2 + DigitRun(s, 2) == |s| && 7 <= DigitRun(s, 2) <= 8
  }

  /** `/^\d{4}/`: at least four digits at the start; anything may follow. */
  predicate MatchesYear(s: string) {
    DigitRun(s, 0) >= 4
  }

  /** An `imdbID` passes iff it is "tt" followed by exactly 7 or 8 ASCII digits and nothing else. */
  lemma {:induction false} ImdbIdPattern(s: string)
    ensures MatchesImdbId(s) <==>
      (|s| == 9 || |s| == 10) && s[..2] == "tt" && forall k :: 2 <= k < |s| ==> IsDigit(s[k])
  {
    if (|s| == 9 || |s| == 10) && s[..2] == "tt" && forall k :: 2 <= k < |s| ==> IsDigit(s[k]) {
      assert s[0] == s[..2][0] && s[1] == s[..2][1];
    }
  }

  /** A `year` passes iff its first four characters are digits, whatever follows. */
  lemma {:induction false} YearPattern(s: string)
    ensures MatchesYear(s) <==> |s| >= 4 && forall k :: 0 <= k < 4 ==> IsDigit(s[k])
  {
    var r := DigitRun(s, 0);
  }

  /** Concrete ids: the IMDb id of "The Matrix" and an 8-digit id pass; ids of the wrong shape do not. */
  lemma {:induction false} ImdbIdExamples()
    ensures MatchesImdbId("tt0133093") && MatchesImdbId("tt12345678")
    ensures !MatchesImdbId("tt013309") && !MatchesImdbId("tt123456789") && !MatchesImdbId("TT0133093")
  {
    assert DigitRun("tt0133093", 9) == 0;
    assert DigitRun("tt12345678", 10) == 0;
    assert DigitRun("tt013309", 8) == 0;
    assert DigitRun("tt123456789", 11) == 0;
  }

  /** Concrete years: a plain year and a year range pass; three digits and "N/A" do not. */
  lemma {:induction false} YearExamples()
    ensures MatchesYear("1999") && MatchesYear("2019–2022") && !MatchesYear("199") && !MatchesYear("N/A")
  {
    assert DigitRun("1999", 4) == 0;
    assert DigitRun("2019–2022", 4) == 0;
    assert DigitRun("199", 3) == 0;
  }

  /** `@IsString()`: the field is present and a string. */
  predicate IsString(v: Option<Json>) {
    v.Some? && v.value.JString?
  }

  /** A string field that also matches `pattern` (`@Matches` fails on anything that is not a string). */
  predicate IsStringMatching(v: Option<Json>, pattern: string -> bool) {
    IsString(v) && pattern(v.value.s)
  }

  /**
   * The names of the `MovieDto` properties that fail, in declaration order. `isUrl` is the
   * validator library's URL check, which `poster` must pass.
   */
  function MovieDtoErrors(fields: JsMap.Entries<Json>, isUrl: string -> bool): (r: seq<string>)
    ensures |r| <= 5
  {
    var imdbID := JsMap.Get(fields, "imdbID");
    var poster := JsMap.Get(fields, "poster");
    (if IsStringMatching(imdbID, MatchesImdbId) then [] else ["imdbID"])
    + (if IsString(JsMap.Get(fields, "title")) then [] else ["title"])
    + (if IsString(JsMap.Get(fields, "type")) then [] else ["type"])
    + (if IsStringMatching(JsMap.Get(fields, "year"), MatchesYear) then [] else ["year"])
    + (if poster.Some? && poster.value.JString? && isUrl(poster.value.s) then [] else ["poster"])
  }

  /** `CreateFavoriteDto`: `movie` must be an object (not null, not an array), validated as a `MovieDto`. */
  function CreateFavoriteErrors(body: JsMap.Entries<Json>, isUrl: string -> bool): seq<string> {
    var movie := JsMap.Get(body, "movie");
    if movie.Some? && movie.value.JObject? then MovieDtoErrors(movie.value.fields, isUrl) else ["movie"]
  }

  /**
   * The `MovieDto` rules, one by one: the error list is empty iff every rule holds, and a
   * string title (the empty string included) is never reported.
   */
  lemma {:induction false} MovieDtoErrorsSpec(f: JsMap.Entries<Json>, isUrl: string -> bool)
    ensures MovieDtoErrors(f, isUrl) == [] <==>
      && IsStringMatching(JsMap.Get(f, "imdbID"), MatchesImdbId)
      && IsString(JsMap.Get(f, "title"))
      && IsString(JsMap.Get(f, "type"))
      && IsStringMatching(JsMap.Get(f, "year"), MatchesYear)
      && IsString(JsMap.Get(f, "poster")) && isUrl(JsMap.Get(f, "poster").value.s)
    ensures IsString(JsMap.Get(f, "title")) ==> "title" !in MovieDtoErrors(f, isUrl)
  {
    var poster := JsMap.Get(f, "poster");
    var a: seq<string> := if IsStringMatching(JsMap.Get(f, "imdbID"), MatchesImdbId) then [] else ["imdbID"];
    var b: seq<string> := if IsString(JsMap.Get(f, "title")) then [] else ["title"];
    var c: seq<string> := if IsString(JsMap.Get(f, "type")) then [] else ["type"];
    var d: seq<string> := if IsStringMatching(JsMap.Get(f, "year"), MatchesYear) then [] else ["year"];
    var e: seq<string> := if poster.Some? && poster.value.JString? && isUrl(poster.value.s) then [] else ["poster"];
    assert MovieDtoErrors(f, isUrl) == a + b + c + d + e;
    assert "title" != "imdbID" && "title" != "type" && "title" != "year" && "title" != "poster";
  }

  /**
   * A body is accepted iff `movie` is an object whose `imdbID` is a "tt"+7-or-8-digit string,
   * whose `title` and `type` are strings (the empty string included), whose `year` is a string
   * starting with four digits and whose `poster` is a URL string.
   */
  lemma {:induction false} CreateFavoriteSpec(body: JsMap.Entries<Json>, isUrl: string -> bool)
    ensures CreateFavoriteErrors(body, isUrl) == [] <==>
      && JsMap.Get(body, "movie").Some? && JsMap.Get(body, "movie").value.JObject?
      && var f := JsMap.Get(body, "movie").value.fields;
      && IsStringMatching(JsMap.Get(f, "imdbID"), MatchesImdbId)
      && IsString(JsMap.Get(f, "title"))
      && IsString(JsMap.Get(f, "type"))
      && IsStringMatching(JsMap.Get(f, "year"), MatchesYear)
      && IsString(JsMap.Get(f, "poster")) && isUrl(JsMap.Get(f, "poster").value.s)
    ensures JsMap.Get(body, "movie").Some? && JsMap.Get(body, "movie").value.JObject? ==>
      (JsMap.Get(JsMap.Get(body, "movie").value.fields, "title") == Some(JString("")) ==>
        "title" !in CreateFavoriteErrors(body, isUrl))
  {
    var movie := JsMap.Get(body, "movie");
    if movie.Some? && movie.value.JObject? {
      MovieDtoErrorsSpec(movie.value.fields, isUrl);
    }
  }
}

=== FILE: movie_processor.dfy ===
/**
 * The `movie` queue worker: plain search, semantic search and recommendations, each turning
 * a job into exactly one terminal event. The OMDb call, the title suggester, the ranker and the
 * recommendations query are collaborators whose outcomes are given.
 */
module MovieWorker {
  import opened Wrappers
  import opened Movies
  import opened Events
  import opened Streams
  import MovieService

  const SearchJobName := "movie-search"
  const SemanticJobName := "semantic-movie-search"
  const RecommendationsJobName := "movie-recommendations"

  const NoMoviesMessage := "No movies found for suggested titles"

  /** A job on the `movie` queue; `page` and `limit` are the numeric values of the filter strings. */
  datatype MovieJob = MovieJob(name: string, queryId: QueryId, query: string, page: int, limit: int)

  /**
   * What the collaborators answer: the OMDb body (or a transport error) for a query and page,
   * the AI title suggestions for a query, the embedding ranker's order for a query and
   * candidates, and the recommendations query. `Err` carries the thrown error's message.
   */
  datatype Collaborators = Collaborators(
    omdb: (string, int) -> Result<MovieService.OmdbBody>,
    suggestTitles: string -> Result<seq<string>>,
    rank: (string, seq<Movie>) -> Result<seq<Movie>>,
    recommendations: Result<seq<Movie>>)

  /** `queryBus.execute(new SearchMovieQuery(query, page, limit))`, keeping only `movies`. */
  function SearchMovies(c: Collaborators, query: string, page: int, limit: int): (r: Result<seq<Movie>>)
    ensures r.Err? <==> c.omdb(query, page).Err?
    ensures r.Err? ==> r.message == MovieService.SearchFailedMessage
    ensures r.Ok? ==> r.value <= MovieService.UniqueMovies(c.omdb(query, page).value.search.GetOr([]))
    ensures r.Ok? ==> r.value == MovieService.Search(c.omdb(query, page), page, limit).value.movies
    ensures r.Ok? && limit >= 0 ==>
      var unique := MovieService.UniqueMovies(c.omdb(query, page).value.search.GetOr([]));
      r.value == unique[..if limit < |unique| then limit else |unique|]
  {
    match MovieService.Search(c.omdb(query, page), page, limit)
    case Err(message) => Err(message)
    case Ok(response) =>
      MovieService.SearchOkSpec(c.omdb(query, page).value, page, limit);
      Ok(response.movies)
  }

  /**
   * One suggested title looked up with page 1 and limit 1: `movies[0]`, `undefined` when the
   * list is empty (`None`) and `null` when the search throws (`None`).
   */
  function Lookup(c: Collaborators, title: string): Option<Movie> {
    match SearchMovies(c, title, 1, 1)
    case Err(_) => None
    case Ok(movies) => if |movies| == 0 then None else Some(movies[0])
  }

  /** `suggestedTitles.map(lookup)` awaited with `Promise.all`: one result per title, in order. */
  function Lookups(c: Collaborators, titles: seq<string>): (r: seq<Option<Movie>>)
    ensures |r| == |titles|
    ensures forall i :: 0 <= i < |titles| ==> r[i] == Lookup(c, titles[i])
  {
    seq(|titles|, i requires 0 <= i < |titles| => Lookup(c, titles[i]))
  }

  /** The movies or the error message that `processSemanticMovieSearch` ends with. */
  function SemanticOutcome(c: Collaborators, query: string): Result<seq<Movie>> {
    match c.suggestTitles(query)
    case Err(message) => Err(message)
    case Ok(titles) =>
      if |titles| == 0 then SearchMovies(c, query, 1, 10)
      else
        var found := Compact(Lookups(c, titles));
        if |found| == 0 then Err(NoMoviesMessage) else c.rank(query, found)
  }

  /** The terminal event of operation `kind`: its success class or its failure class. */
  function Terminal(kind: EventKind, queryId: QueryId, outcome: Result<seq<Movie>>, elapsed: nat): BusEvent {
    match outcome
    case Ok(movies) => Complete(kind, queryId, movies, elapsed)
    case Err(message) => Failed(kind, queryId, message)
  }

  /** The operation a job name selects. */
  function JobKind(name: string): (r: Option<EventKind>)
    ensures r.Some? <==> name in {SearchJobName, SemanticJobName, RecommendationsJobName}
    ensures r.Some? ==> r.value in {MovieSearch, SemanticMovieSearch, MovieRecommendations}
    ensures r == Some(MovieSearch) <==> name == SearchJobName
    ensures r == Some(SemanticMovieSearch) <==> name == SemanticJobName
    ensures r == Some(MovieRecommendations) <==> name == RecommendationsJobName
  {
    if name == SearchJobName then Some(MovieSearch)
    else if name == SemanticJobName then Some(SemanticMovieSearch)
    else if name == RecommendationsJobName then Some(MovieRecommendations)
    else None
  }

  /** What the selected handler ends with. */
  function Outcome(c: Collaborators, job: MovieJob): Result<seq<Movie>> {
    if job.name == SearchJobName then SearchMovies(c, job.query, job.page, job.limit)
    else if job.name == SemanticJobName then SemanticOutcome(c, job.query)
    else c.recommendations
  }

  /** The events `process(job)` publishes. */
  function JobEvents(c: Collaborators, job: MovieJob, elapsed: nat): seq<BusEvent> {
    match JobKind(job.name)
    case None => []
    case Some(kind) => [Terminal(kind, job.queryId, Outcome(c, job), elapsed)]
  }

  /**
   * Every recognised job publishes exactly one event, of its own operation's success or failure
   * class and carrying the job's queryId; an unknown name publishes nothing.
   */
  lemma {:induction false} JobEventsSpec(c: Collaborators, job: MovieJob, elapsed: nat)
    ensures |JobEvents(c, job, elapsed)| == if JobKind(job.name).Some? then 1 else 0
    ensures forall e :: e in JobEvents(c, job, elapsed) ==>
      (e.Complete? || e.Failed?) && e.kind == JobKind(job.name).value && e.queryId == job.queryId
    ensures forall e :: e in JobEvents(c, job, elapsed) ==>
      (e.Complete? <==> Outcome(c, job).Ok?) &&
      (e.Complete? ==> e.response == Outcome(c, job).value && e.durationMs == elapsed) &&
      (e.Failed? ==> e.message == Outcome(c, job).message)
  {
  }

  /** A plain search succeeds with the normalised movies, or fails with "Failed to search movies". */
  lemma {:induction false} SearchJobSpec(c: Collaborators, job: MovieJob, elapsed: nat)
    requires job.name == SearchJobName
    ensures c.omdb(job.query, job.page).Ok? ==>
      JobEvents(c, job, elapsed) == [Complete(MovieSearch, job.queryId,
        MovieService.Search(c.omdb(job.query, job.page), job.page, job.limit).value.movies, elapsed)]
    ensures c.omdb(job.query, job.page).Err? ==>
      JobEvents(c, job, elapsed) == [Failed(MovieSearch, job.queryId, MovieService.SearchFailedMessage)]
  {
  }

  /**
   * No suggestions: a plain search with page 1 and limit 10, published as a semantic-search
   * success (even when it finds nothing); only an OMDb failure makes it a failure.
   */
  lemma {:induction false} SemanticFallback(c: Collaborators, job: MovieJob, elapsed: nat)
    requires job.name == SemanticJobName && c.suggestTitles(job.query) == Ok([])
    ensures c.omdb(job.query, 1).Ok? ==>
      JobEvents(c, job, elapsed) == [Complete(SemanticMovieSearch, job.queryId,
        MovieService.Search(c.omdb(job.query, 1), 1, 10).value.movies, elapsed)]
    ensures c.omdb(job.query, 1).Err? ==>
      JobEvents(c, job, elapsed) == [Failed(SemanticMovieSearch, job.queryId, MovieService.SearchFailedMessage)]
  {
  }

  /** A failing suggester ends the job with one failure event carrying its message. */
  lemma {:induction false} SemanticSuggestFails(c: Collaborators, job: MovieJob, elapsed: nat)
    requires job.name == SemanticJobName && c.suggestTitles(job.query).Err?
    ensures JobEvents(c, job, elapsed) == [Failed(SemanticMovieSearch, job.queryId, c.suggestTitles(job.query).message)]
  {
  }

  /**
   * The looked-up movies: a title whose search fails or finds nothing is dropped, the others
   * keep the order of their titles, and each is the first result of its title's search.
   */
  lemma {:induction false} FoundMoviesSpec(c: Collaborators, titles: seq<string>)
    ensures |Compact(Lookups(c, titles))| == |Positions(IsSome, Lookups(c, titles))|
    ensures StrictlyIncreasing(Positions(IsSome, Lookups(c, titles)))
    ensures forall k :: k in Positions(IsSome, Lookups(c, titles)) <==> 0 <= k < |titles| && Lookup(c, titles[k]).Some?
    ensures forall i :: 0 <= i < |Compact(Lookups(c, titles))| ==>
      Positions(IsSome, Lookups(c, titles))[i] < |titles| &&
      Lookup(c, titles[Positions(IsSome, Lookups(c, titles))[i]]) == Some(Compact(Lookups(c, titles))[i])
    ensures Compact(Lookups(c, titles)) == [] <==> forall k :: 0 <= k < |titles| ==> Lookup(c, titles[k]).None?
  {
    CompactSpec(Lookups(c, titles));
  }

  /** A found movie is the first deduplicated OMDb result for its title. */
  lemma {:induction false} LookupSpec(c: Collaborators, title: string)
    ensures Lookup(c, title).Some? <==>
      c.omdb(title, 1).Ok? && |MovieService.UniqueMovies(c.omdb(title, 1).value.search.GetOr([]))| > 0
    ensures Lookup(c, title).Some? ==>
      Lookup(c, title).value == MovieService.UniqueMovies(c.omdb(title, 1).value.search.GetOr([]))[0]
  {
  }

  /**
   * With suggestions: when every lookup is dropped the job fails with "No movies found for
   * suggested titles"; otherwise its outcome is exactly the ranker's answer for the found movies.
   */
  lemma {:induction false} SemanticWithSuggestions(c: Collaborators, job: MovieJob, elapsed: nat)
    requires job.name == SemanticJobName && c.suggestTitles(job.query).Ok?
    requires |c.suggestTitles(job.query).value| > 0
    ensures (forall k :: 0 <= k < |c.suggestTitles(job.query).value| ==> Lookup(c, c.suggestTitles(job.query).value[k]).None?) ==>
      JobEvents(c, job, elapsed) == [Failed(SemanticMovieSearch, job.queryId, NoMoviesMessage)]
    ensures (exists k :: 0 <= k < |c.suggestTitles(job.query).value| && Lookup(c, c.suggestTitles(job.query).value[k]).Some?) ==>
      JobEvents(c, job, elapsed) ==
        [Terminal(SemanticMovieSearch, job.queryId, c.rank(job.query, Compact(Lookups(c, c.suggestTitles(job.query).value))), elapsed)]
  {
    FoundMoviesSpec(c, c.suggestTitles(job.query).value);
  }

  /** Recommendations publish the query's movies on success, its message on failure. */
  lemma {:induction false} RecommendationsJobSpec(c: Collaborators, job: MovieJob, elapsed: nat)
    requires job.name == RecommendationsJobName
    ensures JobEvents(c, job, elapsed) == [Terminal(MovieRecommendations, job.queryId, c.recommendations, elapsed)]
  {
  }

  /** `MovieSearchProcessor`: the worker, publishing into the event bus. */
  class MovieSearchProcessor {
    const eventBus: EventBus
    const collaborators: Collaborators

    constructor(eventBus: EventBus, collaborators: Collaborators)
      ensures this.eventBus == eventBus && this.collaborators == collaborators
    {
      this.eventBus := eventBus;
      this.collaborators := collaborators;
    }

    /** `process(job)`: dispatch on the job name; `elapsed` stands for `Date.now() - start`. */
    method Process(job: MovieJob, elapsed: nat)
      modifies eventBus
      ensures eventBus.published == old(eventBus.published) + JobEvents(collaborators, job, elapsed)
    {
      if job.name == SearchJobName {
        ProcessSearchMovie(job, elapsed);
      } else if job.name == SemanticJobName {
        ProcessSemanticMovieSearch(job, elapsed);
      } else if job.name == RecommendationsJobName {
        ProcessMovieRecommendations(job, elapsed);
      }
    }

    method ProcessSearchMovie(job: MovieJob, elapsed: nat)
      modifies eventBus
      ensures eventBus.published == old(eventBus.published) +
        [Terminal(MovieSearch, job.queryId, SearchMovies(collaborators, job.query, job.page, job.limit), elapsed)]
    {
      var result := SearchMovies(collaborators, job.query, job.page, job.limit);
      match result {
        case Ok(movies) =>
          eventBus.Publish(Complete(MovieSearch, job.queryId, movies, elapsed));
        case Err(message) =>
          eventBus.Publish(Failed(MovieSearch, job.queryId, message));
      }
    }

    method ProcessSemanticMovieSearch(job: MovieJob, elapsed: nat)
      modifies eventBus
      ensures eventBus.published == old(eventBus.published) +
        [Terminal(SemanticMovieSearch, job.queryId, SemanticOutcome(collaborators, job.query), elapsed)]
    {
      var suggested := collaborators.suggestTitles(job.query);
      if suggested.Err? {
        eventBus.Publish(Failed(SemanticMovieSearch, job.queryId, suggested.message));
        return;
      }
      var titles := suggested.value;
      if |titles| == 0 {
        var fallback := SearchMovies(collaborators, job.query, 1, 10);
        if fallback.Err? {
          eventBus.Publish(Failed(SemanticMovieSearch, job.queryId, fallback.message));
        } else {
          eventBus.Publish(Complete(SemanticMovieSearch, job.queryId, fallback.value, elapsed));
        }
        return;
      }
      var foundMovies := Compact(Lookups(collaborators, titles));
      if |foundMovies| == 0 {
        eventBus.Publish(Failed(SemanticMovieSearch, job.queryId, NoMoviesMessage));
        return;
      }
      var ranked := collaborators.rank(job.query, foundMovies);
      if ranked.Err? {
        eventBus.Publish(Failed(SemanticMovieSearch, job.queryId, ranked.message));
      } else {
        eventBus.Publish(Complete(SemanticMovieSearch, job.queryId, ranked.value, elapsed));
      }
    }

    method ProcessMovieRecommendations(job: MovieJob, elapsed: nat)
      modifies eventBus
      ensures eventBus.published == old(eventBus.published) +
        [Terminal(MovieRecommendations, job.queryId, collaborators.recommendations, elapsed)]
    {
      var recommended := collaborators.recommendations;
      if recommended.Err? {
        eventBus.Publish(Failed(MovieRecommendations, job.queryId, recommended.message));
      } else {
        eventBus.Publish(Complete(MovieRecommendations, job.queryId, recommended.value, elapsed));
      }
    }
  }
}

=== FILE: movie_service.dfy ===
/**
 * `MovieService.search` without its HTTP call: the OMDb response body (or the error the call
 * threw) goes in, and the normalised, deduplicated, truncated page of movies comes out.
 */
module MovieService {
  import opened Wrappers
  import opened Movies
  import opened Streams
  import JsMap

  /** One element of OMDb's `Search` array; `kind` is its `Type`. */
  datatype RawMovie = RawMovie(imdbID: Option<string>, title: string, year: string, poster: string, kind: string)

  /** The OMDb body: `Search`, and `totalResults` as the number `parseInt` reads from it. */
  datatype OmdbBody = OmdbBody(search: Option<seq<RawMovie>>, totalResults: Option<nat>)

  /** A JavaScript number as far as `Math.ceil(total / limit)` can produce one. */
  datatype JsNumber = Finite(value: int) | Infinity | NaN

  datatype SearchResponse = SearchResponse(
    movies: seq<Movie>,
    totalResults: nat,
    currentPage: int,
    totalPages: JsNumber)

  const SearchFailedMessage := "Failed to search movies"

  /** The characters `String.prototype.trim` removes (white space and line terminators). */
  predicate IsJsWhitespace(c: char) {
    c == '\t' || c == '\n' || c == '\U{000B}' || c == '\U{000C}' || c == '\r' || c == ' ' ||
    c == '\U{00A0}' || c == '\U{1680}' || ('\U{2000}' <= c <= '\U{200A}') ||
    c == '\U{2028}' || c == '\U{2029}' || c == '\U{202F}' || c == '\U{205F}' ||
    c == '\U{3000}' || c == '\U{FEFF}'
  }

  /** Drops leading white space: the result is the suffix of `s` after its white-space run. */
  function TrimStart(s: string): (r: string)
    ensures |r| <= |s| && r == s[|s| - |r|..]
    ensures forall k :: 0 <= k < |s| - |r| ==> IsJsWhitespace(s[k])
    ensures |r| > 0 ==> !IsJsWhitespace(r[0])
  {
    if |s| > 0 && IsJsWhitespace(s[0]) then TrimStart(s[1..]) else s
  }

  /** Drops trailing white space: the result is the prefix of `s` before its white-space run. */
  function TrimEnd(s: string): (r: string)
    ensures |r| <= |s| && r == s[..|r|]
    ensures forall k :: |r| <= k < |s| ==> IsJsWhitespace(s[k])
    ensures |r| > 0 ==> !IsJsWhitespace(r[|r| - 1])
  {
    if |s| > 0 && IsJsWhitespace(s[|s| - 1]) then TrimEnd(s[..|s| - 1]) else s
  }

  /** `s.trim()`. */
  function Trim(s: string): string {
    TrimEnd(TrimStart(s))
  }

  /** Where the piece `trim` keeps starts and ends in `s`. */
  lemma {:induction false} TrimBounds(s: string) returns (i: nat, j: nat)
    ensures i <= j <= |s| && Trim(s) == s[i..j]
    ensures forall k :: 0 <= k < i ==> IsJsWhitespace(s[k])
    ensures forall k :: j <= k < |s| ==> IsJsWhitespace(s[k])
  {
    var t := TrimStart(s);
    var u := TrimEnd(t);
    i := |s| - |t|;
    j := i + |u|;
    assert u == s[i..j];
    forall k | j <= k < |s| ensures IsJsWhitespace(s[k]) {
      assert s[k] == t[k - i];
    }
  }

  /**
   * `trim` cuts `s` down to one contiguous piece with white space only around it, and that
   * piece neither starts nor ends with white space.
   */
  lemma {:induction false} TrimSpec(s: string)
    ensures exists i, j :: (0 <= i <= j <= |s| && Trim(s) == s[i..j] &&
      forall k :: 0 <= k < i || j <= k < |s| ==> IsJsWhitespace(s[k]))
    ensures |Trim(s)| > 0 ==> !IsJsWhitespace(Trim(s)[0]) && !IsJsWhitespace(Trim(s)[|Trim(s)| - 1])
  {
    var i, j := TrimBounds(s);
    assert forall k :: 0 <= k < i || j <= k < |s| ==> IsJsWhitespace(s[k]);
    var t := TrimStart(s);
    assert |Trim(s)| > 0 ==> Trim(s)[0] == t[0];
  }

  function LowerAscii(c: char): char {
    if 'A' <= c <= 'Z' then (c as int + 32) as char else c
  }

  /** `s.toLowerCase()` restricted to ASCII letters (IMDb ids are ASCII). */
  function ToLower(s: string): (r: string)
    ensures |r| == |s|
    ensures forall k :: 0 <= k < |s| ==> r[k] == LowerAscii(s[k])
  {
    seq(|s|, k requires 0 <= k < |s| => LowerAscii(s[k]))
  }

  /** `imdbID.trim().toLowerCase()`: the key and the stored id. */
  function NormaliseId(id: string): string {
    ToLower(Trim(id))
  }

  /** `!!el.imdbID`: the id is present and not empty (before trimming). */
  predicate HasTruthyId(r: RawMovie) {
    r.imdbID.Some? && r.imdbID.value != ""
  }

  function KeyOf(r: RawMovie): string {
    NormaliseId(r.imdbID.GetOr(""))
  }

  /** The `[key, movie]` pair built for one raw entry. */
  function Entry(r: RawMovie): (string, Movie) {
    (KeyOf(r), Movie(KeyOf(r), r.title, r.kind, r.year, r.poster))
  }

  /** `Array.from(new Map(movies.filter(...).map(...)).values())`. */
  function UniqueMovies(raw: seq<RawMovie>): seq<Movie> {
    JsMap.Values(JsMap.FromEntries(FilterMap(HasTruthyId, Entry, raw)))
  }

  /** Where `slice(0, end)` stops for an array of length `len`. */
  function SliceEnd(len: nat, end: int): nat {
    if end < 0 then (if len + end < 0 then 0 else len + end)
    else if end < len then end else len
  }

  /** `Math.ceil(total / limit)`. */
  function TotalPages(total: nat, limit: int): JsNumber {
    if limit > 0 then Finite(total / limit + (if total % limit == 0 then 0 else 1))
    else if limit == 0 then (if total == 0 then NaN else Infinity)
    else Finite(-(total / -limit))
  }

  /** The response built from a body OMDb returned. */
  function Normalise(body: OmdbBody, page: int, limit: int): SearchResponse {
    var unique := UniqueMovies(body.search.GetOr([]));
    var total := body.totalResults.GetOr(0);
    SearchResponse(unique[..SliceEnd(|unique|, limit)], total, page, TotalPages(total, limit))
  }

  /** `search(query, page, limit)` given what the HTTP call produced. */
  function Search(response: Result<OmdbBody>, page: int, limit: int): (r: Result<SearchResponse>)
    ensures r.Err? <==> response.Err?
    ensures r.Err? ==> r.message == SearchFailedMessage
    ensures r.Ok? ==> r.value.currentPage == page && r.value.totalResults == response.value.totalResults.GetOr(0)
    ensures r.Ok? ==> |r.value.movies| <= |UniqueMovies(response.value.search.GetOr([]))|
  {
    match response
    case Err(_) => Err(SearchFailedMessage)
    case Ok(body) => Ok(Normalise(body, page, limit))
  }

  /** Raw entry `r` has a truthy id whose normalised form is `key`. */
  predicate KeyedAs(r: RawMovie, key: string) {
    HasTruthyId(r) && KeyOf(r) == key
  }

  /** Raw entry `i` is the last raw entry with a truthy id whose normalised id is `KeyOf(raw[i])`. */
  ghost predicate IsLastOfKey(raw: seq<RawMovie>, i: int) {
    0 <= i < |raw| && HasTruthyId(raw[i]) &&
    forall j :: i < j < |raw| ==> !KeyedAs(raw[j], KeyOf(raw[i]))
  }

  /** The first position of `s` holding a kept element whose entry has key `key` (`|s|` when there is none). */
  ghost function FirstKeyed<A, V>(keep: A -> bool, entry: A -> (string, V), s: seq<A>, key: string): (r: nat)
    ensures r <= |s|
    ensures r < |s| ==> keep(s[r]) && entry(s[r]).0 == key
    ensures forall j :: 0 <= j < r ==> !(keep(s[j]) && entry(s[j]).0 == key)
  {
    if |s| == 0 then 0
    else if keep(s[0]) && entry(s[0]).0 == key then 0
    else
      var r' := FirstKeyed(keep, entry, s[1..], key);
      assert forall j :: 1 <= j < |s| ==> s[1..][j - 1] == s[j];
      1 + r'
  }

  /** The first raw entry with a truthy id and normalised id `key` (`|raw|` when there is none). */
  ghost function FirstRawIndex(raw: seq<RawMovie>, key: string): (r: nat)
    ensures r <= |raw|
    ensures r < |raw| ==> KeyedAs(raw[r], key)
    ensures forall j :: 0 <= j < r ==> !KeyedAs(raw[j], key)
  {
    var r := FirstKeyed(HasTruthyId, Entry, raw, key);
    assert forall j :: 0 <= j < |raw| ==> Entry(raw[j]).0 == KeyOf(raw[j]);
    r
  }

  /** Every pair of `new Map(xs.filter(keep).map(entry))` is the entry of some kept element. */
  lemma {:induction false} MapPairsFromKept<A, V>(keep: A -> bool, entry: A -> (string, V), s: seq<A>)
    ensures forall a :: 0 <= a < |JsMap.FromEntries(FilterMap(keep, entry, s))| ==>
      exists i :: 0 <= i < |s| && keep(s[i]) && entry(s[i]) == JsMap.FromEntries(FilterMap(keep, entry, s))[a]
  {
    var es := FilterMap(keep, entry, s);
    var m := JsMap.FromEntries(es);
    var ps := Positions(keep, s);
    JsMap.FromEntriesKeys(es);
    FilterMapSpec(keep, entry, s);
    forall a | 0 <= a < |m| ensures exists i :: 0 <= i < |s| && keep(s[i]) && entry(s[i]) == m[a] {
      var t :| 0 <= t < |es| && es[t] == m[a];
      assert ps[t] in ps;
      assert entry(s[ps[t]]) == m[a];
    }
  }

  /** The first pair with a key in `xs.filter(keep).map(entry)` comes from the first kept element with it. */
  lemma {:induction false} FirstKeyedPosition<A, V>(keep: A -> bool, entry: A -> (string, V), s: seq<A>, key: string)
    requires JsMap.Has(FilterMap(keep, entry, s), key)
    ensures JsMap.FirstIndex(FilterMap(keep, entry, s), key) < |Positions(keep, s)|
    ensures FirstKeyed(keep, entry, s, key) == Positions(keep, s)[JsMap.FirstIndex(FilterMap(keep, entry, s), key)]
  {
    var es := FilterMap(keep, entry, s);
    var ps := Positions(keep, s);
    FilterMapAt(keep, entry, s);
    var t := JsMap.IndexOf(es, key).value;
    assert JsMap.FirstIndex(es, key) == t;
    var f := FirstKeyed(keep, entry, s, key);
    assert keep(s[ps[t]]) && entry(s[ps[t]]).0 == key by {
      PositionsMembers(keep, s);
      assert ps[t] in ps;
    }
    assert f <= ps[t];
    assert f in ps by { PositionsMembers(keep, s); }
    var u :| 0 <= u < |ps| && ps[u] == f;
    assert es[u].0 == key;
    assert t <= u;
    assert ps[t] <= ps[u] by { PositionsAscend(keep, s); }
  }

  /** In `new Map(xs.filter(keep).map(entry))` the last kept element with a key supplies its value. */
  lemma {:induction false} LastKeptWins<A, V>(keep: A -> bool, entry: A -> (string, V), s: seq<A>, i: nat)
    requires i < |s| && keep(s[i])
    requires forall j :: i < j < |s| ==> !(keep(s[j]) && entry(s[j]).0 == entry(s[i]).0)
    ensures JsMap.Get(JsMap.FromEntries(FilterMap(keep, entry, s)), entry(s[i]).0) == Some(entry(s[i]).1)
  {
    var es := FilterMap(keep, entry, s);
    var ps := Positions(keep, s);
    FilterMapAt(keep, entry, s);
    var t: nat :| t < |ps| && ps[t] == i by {
      PositionsMembers(keep, s);
      assert i in ps;
    }
    assert es[t] == entry(s[i]);
    assert JsMap.IsLastWithKey(es, t) by {
      PositionsAscend(keep, s);
      PositionsMembers(keep, s);
      forall t' | t < t' < |es| ensures es[t'].0 != es[t].0 {
        assert ps[t] < ps[t'];
        assert ps[t'] in ps;
      }
    }
    JsMap.FromEntriesLastValue(es);
  }

  /** The keyed entries are the entries of the raw elements with a truthy id, in order. */
  lemma {:induction false} KeyedEntries(raw: seq<RawMovie>)
    ensures |FilterMap(HasTruthyId, Entry, raw)| == |Positions(HasTruthyId, raw)|
    ensures StrictlyIncreasing(Positions(HasTruthyId, raw))
    ensures forall t :: 0 <= t < |Positions(HasTruthyId, raw)| ==>
      Positions(HasTruthyId, raw)[t] < |raw| &&
      HasTruthyId(raw[Positions(HasTruthyId, raw)[t]]) &&
      FilterMap(HasTruthyId, Entry, raw)[t] == Entry(raw[Positions(HasTruthyId, raw)[t]])
    ensures forall i :: 0 <= i < |raw| && HasTruthyId(raw[i]) ==> i in Positions(HasTruthyId, raw)
    ensures forall t :: 0 <= t < |FilterMap(HasTruthyId, Entry, raw)| ==>
      FilterMap(HasTruthyId, Entry, raw)[t].1.imdbID == FilterMap(HasTruthyId, Entry, raw)[t].0
  {
    FilterMapSpec(HasTruthyId, Entry, raw);
  }

  /** The output movies are the values of the map, each stored under its own id. */
  lemma {:induction false} UniqueMoviesAreValues(raw: seq<RawMovie>)
    ensures |UniqueMovies(raw)| == |JsMap.FromEntries(FilterMap(HasTruthyId, Entry, raw))|
    ensures forall a :: 0 <= a < |UniqueMovies(raw)| ==>
      UniqueMovies(raw)[a] == JsMap.FromEntries(FilterMap(HasTruthyId, Entry, raw))[a].1 &&
      UniqueMovies(raw)[a].imdbID == JsMap.FromEntries(FilterMap(HasTruthyId, Entry, raw))[a].0
  {
    var es := FilterMap(HasTruthyId, Entry, raw);
    var m := JsMap.FromEntries(es);
    KeyedEntries(raw);
    JsMap.FromEntriesKeys(es);
    forall a | 0 <= a < |m| ensures m[a].1.imdbID == m[a].0 {
      var t :| 0 <= t < |es| && es[t] == m[a];
    }
  }

  /** Output ids are distinct, and each is the normalised id of some raw entry with a truthy id. */
  lemma {:induction false} UniqueMoviesIds(raw: seq<RawMovie>)
    ensures IdsDistinct(UniqueMovies(raw))
    ensures forall m :: m in UniqueMovies(raw) ==> exists i :: 0 <= i < |raw| && KeyedAs(raw[i], m.imdbID)
  {
    var m := JsMap.FromEntries(FilterMap(HasTruthyId, Entry, raw));
    var out := UniqueMovies(raw);
    JsMap.FromEntriesKeys(FilterMap(HasTruthyId, Entry, raw));
    UniqueMoviesAreValues(raw);
    MapPairsFromKept(HasTruthyId, Entry, raw);
    forall mv | mv in out ensures exists i :: 0 <= i < |raw| && KeyedAs(raw[i], mv.imdbID) {
      var a :| 0 <= a < |out| && out[a] == mv;
      var i :| 0 <= i < |raw| && HasTruthyId(raw[i]) && Entry(raw[i]) == m[a];
      assert KeyedAs(raw[i], mv.imdbID);
    }
  }

  /** A movie is kept with the fields of the last raw entry carrying its id. */
  lemma {:induction false} UniqueMoviesLastWins(raw: seq<RawMovie>)
    ensures forall i :: IsLastOfKey(raw, i) ==> Entry(raw[i]).1 in UniqueMovies(raw)
  {
    forall i | IsLastOfKey(raw, i) ensures Entry(raw[i]).1 in UniqueMovies(raw) {
      LastRawIsLastEntry(raw, i);
    }
  }

  lemma {:induction false} LastRawIsLastEntry(raw: seq<RawMovie>, i: int)
    requires IsLastOfKey(raw, i)
    ensures Entry(raw[i]).1 in UniqueMovies(raw)
  {
    var m := JsMap.FromEntries(FilterMap(HasTruthyId, Entry, raw));
    assert forall j :: i < j < |raw| ==> !(HasTruthyId(raw[j]) && Entry(raw[j]).0 == Entry(raw[i]).0) by {
      assert forall j :: i < j < |raw| ==> !KeyedAs(raw[j], KeyOf(raw[i]));
    }
    LastKeptWins(HasTruthyId, Entry, raw, i);
    var a := JsMap.IndexOf(m, Entry(raw[i]).0).value;
    UniqueMoviesAreValues(raw);
    assert UniqueMovies(raw)[a] == Entry(raw[i]).1;
  }

  /** The first keyed entry with a key comes from the first raw entry with that key. */
  lemma {:induction false} FirstIndexToRaw(raw: seq<RawMovie>, key: string)
    requires JsMap.Has(FilterMap(HasTruthyId, Entry, raw), key)
    ensures JsMap.FirstIndex(FilterMap(HasTruthyId, Entry, raw), key) < |Positions(HasTruthyId, raw)|
    ensures FirstRawIndex(raw, key) == Positions(HasTruthyId, raw)[JsMap.FirstIndex(FilterMap(HasTruthyId, Entry, raw), key)]
  {
    FirstKeyedPosition(HasTruthyId, Entry, raw, key);
  }

  /** Two output movies come out in the order of the first raw entries carrying their ids. */
  lemma {:induction false} UniqueMoviesOrderPair(raw: seq<RawMovie>, a: nat, b: nat)
    requires a < b < |UniqueMovies(raw)|
    ensures FirstRawIndex(raw, UniqueMovies(raw)[a].imdbID) < FirstRawIndex(raw, UniqueMovies(raw)[b].imdbID)
  {
    var es := FilterMap(HasTruthyId, Entry, raw);
    var m := JsMap.FromEntries(es);
    var out := UniqueMovies(raw);
    KeyedEntries(raw);
    JsMap.FromEntriesKeys(es);
    JsMap.FromEntriesOrder(es);
    UniqueMoviesAreValues(raw);
    assert JsMap.Has(m, m[a].0) && JsMap.Has(m, m[b].0);
    FirstIndexToRaw(raw, out[a].imdbID);
    FirstIndexToRaw(raw, out[b].imdbID);
  }

  /** Movies come out in the order of the first raw entry carrying each id. */
  lemma {:induction false} UniqueMoviesOrder(raw: seq<RawMovie>)
    ensures forall a, b :: 0 <= a < b < |UniqueMovies(raw)| ==>
      FirstRawIndex(raw, UniqueMovies(raw)[a].imdbID) < FirstRawIndex(raw, UniqueMovies(raw)[b].imdbID)
  {
    forall a, b | 0 <= a < b < |UniqueMovies(raw)|
      ensures FirstRawIndex(raw, UniqueMovies(raw)[a].imdbID) < FirstRawIndex(raw, UniqueMovies(raw)[b].imdbID)
    {
      UniqueMoviesOrderPair(raw, a, b);
    }
  }

  /**
   * The deduplication follows JavaScript `Map` semantics: output ids are distinct normalised
   * ids of raw entries with a truthy id; every such id appears, with the fields of its LAST
   * raw entry; and ids come in the order of their FIRST raw entry.
   */
  lemma {:induction false} UniqueMoviesSpec(raw: seq<RawMovie>)
    ensures IdsDistinct(UniqueMovies(raw))
    ensures forall m :: m in UniqueMovies(raw) ==> exists i :: 0 <= i < |raw| && KeyedAs(raw[i], m.imdbID)
    ensures forall i :: IsLastOfKey(raw, i) ==> Entry(raw[i]).1 in UniqueMovies(raw)
    ensures forall a, b :: 0 <= a < b < |UniqueMovies(raw)| ==>
      FirstRawIndex(raw, UniqueMovies(raw)[a].imdbID) < FirstRawIndex(raw, UniqueMovies(raw)[b].imdbID)
  {
    UniqueMoviesIds(raw);
    UniqueMoviesLastWins(raw);
    UniqueMoviesOrder(raw);
  }

  /** `slice(0, limit)` keeps a prefix: `limit` elements when there are that many, all of them otherwise. */
  lemma {:induction false} SliceSpec(len: nat, limit: int)
    ensures SliceEnd(len, limit) <= len
    ensures limit >= 0 ==> SliceEnd(len, limit) == if limit < len then limit else len
    ensures limit < 0 ==> SliceEnd(len, limit) == if len + limit < 0 then 0 else len + limit
  {
  }

  /**
   * For a positive limit the page count is the least number of `limit`-sized pages that holds
   * `total` results: 0 pages for no results, and otherwise the last page is not empty.
   */
  lemma {:induction false} TotalPagesSpec(total: nat, limit: int)
    requires limit > 0
    ensures TotalPages(total, limit).Finite? && TotalPages(total, limit).value >= 0
    ensures total <= TotalPages(total, limit).value * limit
    ensures total > 0 ==> (TotalPages(total, limit).value - 1) * limit < total
    ensures TotalPages(total, limit).value == 0 <==> total == 0
  {
    var q, r := total / limit, total % limit;
    assert total == q * limit + r;
    if r != 0 {
      assert (q + 1) * limit == q * limit + limit;
    }
  }

  /** 30 results in pages of 10 make 3 pages; 31 make 4; a limit of 0 gives `Infinity`. */
  lemma {:induction false} TotalPagesExamples()
    ensures TotalPages(30, 10) == Finite(3)
    ensures TotalPages(31, 10) == Finite(4)
    ensures TotalPages(0, 10) == Finite(0)
    ensures TotalPages(5, 0) == Infinity && TotalPages(0, 0) == NaN
  {
  }

  /**
   * A successful search returns exactly `slice(0, limit)` of the deduplicated movies (a
   * negative limit drops that many from the end), with distinct trimmed lower-case ids.
   */
  lemma {:induction false} SearchOkSpec(body: OmdbBody, page: int, limit: int)
    ensures Search(Ok(body), page, limit).Ok?
    ensures Search(Ok(body), page, limit).value.movies <= UniqueMovies(body.search.GetOr([]))
    ensures limit >= 0 ==> |Search(Ok(body), page, limit).value.movies| <= limit
    ensures limit >= 0 ==>
      var unique := UniqueMovies(body.search.GetOr([]));
      Search(Ok(body), page, limit).value.movies == unique[..if limit < |unique| then limit else |unique|]
    ensures limit < 0 ==>
      var unique := UniqueMovies(body.search.GetOr([]));
      Search(Ok(body), page, limit).value.movies == unique[..if |unique| + limit < 0 then 0 else |unique| + limit]
    ensures IdsDistinct(Search(Ok(body), page, limit).value.movies)
    ensures forall m :: m in Search(Ok(body), page, limit).value.movies ==>
      exists i :: 0 <= i < |body.search.GetOr([])| && KeyedAs(body.search.GetOr([])[i], m.imdbID)
    ensures Search(Ok(body), page, limit).value.totalPages == TotalPages(body.totalResults.GetOr(0), limit)
  {
    var raw := body.search.GetOr([]);
    var unique := UniqueMovies(raw);
    var r := Search(Ok(body), page, limit).value;
    UniqueMoviesIds(raw);
    assert r.movies == unique[..SliceEnd(|unique|, limit)];
    forall m | m in r.movies ensures m in unique { }
  }

  /** A string that neither starts nor ends with white space is its own trim. */
  lemma {:induction false} TrimOfTrimmed(t: string)
    requires |t| > 0 ==> !IsJsWhitespace(t[0]) && !IsJsWhitespace(t[|t| - 1])
    ensures Trim(t) == t
  {
    assert TrimStart(t) == t;
  }

  lemma {:induction false} ToLowerIdempotent(s: string)
    ensures ToLower(ToLower(s)) == ToLower(s)
  {
  }

  /** Normalised ids are no longer than the input and have no surrounding white space. */
  lemma {:induction false} NormaliseIdEnds(id: string)
    ensures |NormaliseId(id)| <= |id|
    ensures |NormaliseId(id)| > 0 ==> !IsJsWhitespace(NormaliseId(id)[0]) && !IsJsWhitespace(NormaliseId(id)[|NormaliseId(id)| - 1])
  {
    var t := Trim(id);
    TrimSpec(id);
    var n := ToLower(t);
    assert |n| > 0 ==> n[0] == LowerAscii(t[0]) && n[|n| - 1] == LowerAscii(t[|t| - 1]);
  }

  /** Normalised ids have no surrounding white space and no upper-case ASCII letters, so normalising is idempotent. */
  lemma {:induction false} NormaliseIdSpec(id: string)
    ensures |NormaliseId(id)| <= |id|
    ensures |NormaliseId(id)| > 0 ==> !IsJsWhitespace(NormaliseId(id)[0]) && !IsJsWhitespace(NormaliseId(id)[|NormaliseId(id)| - 1])
    ensures forall k :: 0 <= k < |NormaliseId(id)| ==> !('A' <= NormaliseId(id)[k] <= 'Z')
    ensures NormaliseId(NormaliseId(id)) == NormaliseId(id)
  {
    NormaliseIdEnds(id);
    var n := NormaliseId(id);
    TrimOfTrimmed(n);
    assert NormaliseId(n) == ToLower(n);
    ToLowerIdempotent(Trim(id));
  }
}

=== FILE: movies.dfy ===
/** The movie record shared by the back end and the web app, and list helpers over it. */
module Movies {
  import opened Streams

  /**
   * A movie as the back end stores and sends it. `kind` is the source's `type` field.
   * A field that is absent in the original object is represented by "".
   */
  datatype Movie = Movie(imdbID: string, title: string, kind: string, year: string, poster: string)

  /** The object `Object.assign({}, undefined)` produces: every field absent. */
  const EmptyMovie := Movie("", "", "", "", "")

  /** `list.some(m => m.imdbID === id)`. */
  predicate HasId(list: seq<Movie>, id: string) {
    exists i :: 0 <= i < |list| && list[i].imdbID == id
  }

  /** Stored imdbIDs are pairwise distinct. */
  ghost predicate IdsDistinct(list: seq<Movie>) {
    forall i, j :: 0 <= i < j < |list| ==> list[i].imdbID != list[j].imdbID
  }

  /** How many entries carry `id`. */
  function CountId(list: seq<Movie>, id: string): nat {
    if |list| == 0 then 0
    else CountId(list[..|list| - 1], id) + (if list[|list| - 1].imdbID == id then 1 else 0)
  }

  function OtherThan(id: string): Movie -> bool {
    (m: Movie) => m.imdbID != id
  }

  function Same(m: Movie): Movie {
    m
  }

  /** `list.filter(m => m.imdbID !== id)`. */
  function Without(list: seq<Movie>, id: string): seq<Movie> {
    FilterMap(OtherThan(id), Same, list)
  }

  /**
   * `Without` removes every entry with `id` and nothing else, keeps the survivors in
   * their order, and leaves a list without `id` unchanged.
   */
  lemma {:induction false} WithoutSpec(list: seq<Movie>, id: string)
    ensures !HasId(Without(list, id), id)
    ensures forall m :: m in Without(list, id) <==> m in list && m.imdbID != id
    ensures |Without(list, id)| == |Positions(OtherThan(id), list)|
    ensures forall i :: 0 <= i < |Without(list, id)| ==>
      Positions(OtherThan(id), list)[i] < |list| &&
      Without(list, id)[i] == list[Positions(OtherThan(id), list)[i]]
    ensures StrictlyIncreasing(Positions(OtherThan(id), list))
    ensures !HasId(list, id) ==> Without(list, id) == list
  {
    var r := Without(list, id);
    var ps := Positions(OtherThan(id), list);
    FilterMapSpec(OtherThan(id), Same, list);
    forall i | 0 <= i < |r| ensures r[i] in list && r[i].imdbID != id {
      assert ps[i] in ps;
    }
    forall m | m in list && m.imdbID != id ensures m in r {
      var k :| 0 <= k < |list| && list[k] == m;
      assert k in ps;
      var i :| 0 <= i < |ps| && ps[i] == k;
      assert r[i] == m;
    }
    if !HasId(list, id) {
      WithoutNothing(list, id);
    }
  }

  lemma {:induction false} WithoutNothing(list: seq<Movie>, id: string)
    requires !HasId(list, id)
    ensures Without(list, id) == list
  {
    if |list| > 0 {
      var p := list[..|list| - 1];
      assert !HasId(p, id);
      WithoutNothing(p, id);
      assert list == p + [list[|list| - 1]];
    }
  }

  /** Distinct ids stay distinct under removal. */
  lemma {:induction false} WithoutKeepsIdsDistinct(list: seq<Movie>, id: string)
    requires IdsDistinct(list)
    ensures IdsDistinct(Without(list, id))
  {
    WithoutSpec(list, id);
    var r := Without(list, id);
    var ps := Positions(OtherThan(id), list);
    forall i, j | 0 <= i < j < |r| ensures r[i].imdbID != r[j].imdbID {
      assert ps[i] < ps[j];
      assert r[i] == list[ps[i]] && r[j] == list[ps[j]];
    }
  }

  /** With distinct ids, an id occurs once if present and never if absent. */
  lemma {:induction false} CountIdDistinct(list: seq<Movie>, id: string)
    requires IdsDistinct(list)
    ensures CountId(list, id) == if HasId(list, id) then 1 else 0
  {
    if |list| > 0 {
      var p := list[..|list| - 1];
      CountIdDistinct(p, id);
      if list[|list| - 1].imdbID == id {
        assert !HasId(p, id);
      } else {
        assert HasId(list, id) ==> HasId(p, id) by {
          if HasId(list, id) {
            var i :| 0 <= i < |list| && list[i].imdbID == id;
            assert p[i].imdbID == id;
          }
        }
      }
    }
  }
}

=== FILE: pipeline.dfy ===
/**
 * The request/result correlation pipeline end to end: a worker's terminal event travels
 * through the unified stream to exactly the client subscriptions bound to its correlation id
 * (or to none), and through the per-feature endpoint narrowed to that id.
 */
module Pipeline {
  import opened Wrappers
  import opened Movies
  import opened Events
  import opened Streams
  import opened UnifiedStream
  import FeatureStreams
  import ConnectionManager
  import MovieWorker
  import FavoriteWorker
  import FavoritesStore

  /**
   * Appending one terminal event to the bus appends exactly one message to the unified stream,
   * carrying the event's correlation id and its class's type name.
   */
  lemma {:induction false} TerminalReachesStream(before: seq<BusEvent>, e: BusEvent)
    requires e.Complete? || e.Failed?
    ensures Stream(before + [e]) == Stream(before) + [MapEventToResponse(e)]
    ensures MapEventToResponse(e).queryId == e.queryId
    ensures MapEventToResponse(e).eventType == TypeName(e.kind, e.Complete?)
  {
    FilterMapAppend(IsForwarded, MapEventToResponse, before, [e]);
  }

  /**
   * A client subscription receives a terminal event for correlation id `q` when it is bound
   * to `q` (or to "") and lists the event's type name; one bound to another id never does.
   */
  lemma {:induction false} DeliveredOnlyToItsQuery(e: BusEvent, q: string, sub: ConnectionManager.Subscription)
    requires (e.Complete? || e.Failed?) && e.queryId == Some(q)
    ensures sub.queryId == q && TypeName(e.kind, e.Complete?) in sub.eventTypes ==>
      ConnectionManager.Matches(sub, MapEventToResponse(e))
    ensures sub.queryId != "" && sub.queryId != q ==> !ConnectionManager.Matches(sub, MapEventToResponse(e))
  {
  }

  /**
   * A recognised movie job with correlation id `q` adds exactly one message to the unified
   * stream, with id `q` and the success or failure type name of the job's operation, and the
   * per-feature endpoint narrowed to `q` gains exactly the matching status message.
   */
  lemma {:induction false} MovieJobCorrelation(c: MovieWorker.Collaborators, job: MovieWorker.MovieJob, elapsed: nat,
                            before: seq<BusEvent>, q: string)
    requires MovieWorker.JobKind(job.name).Some? && job.queryId == Some(q) && q != ""
    ensures var kind := MovieWorker.JobKind(job.name).value;
      var ok := MovieWorker.Outcome(c, job).Ok?;
      var after := before + MovieWorker.JobEvents(c, job, elapsed);
      && |Stream(after)| == |Stream(before)| + 1
      && Stream(after)[..|Stream(before)|] == Stream(before)
      && Stream(after)[|Stream(before)|].queryId == Some(q)
      && Stream(after)[|Stream(before)|].eventType == TypeName(kind, ok)
      && |FeatureStreams.Endpoint(kind, Some(q), after)| == |FeatureStreams.Endpoint(kind, Some(q), before)| + 1
      && (FeatureStreams.Endpoint(kind, Some(q), after)[|FeatureStreams.Endpoint(kind, Some(q), before)|].Succeeded? <==> ok)
  {
    var kind := MovieWorker.JobKind(job.name).value;
    var e := MovieWorker.Terminal(kind, job.queryId, MovieWorker.Outcome(c, job), elapsed);
    assert MovieWorker.JobEvents(c, job, elapsed) == [e];
    TerminalReachesStream(before, e);
    FilterMapAppend(FeatureStreams.Passes(kind, Some(q)), FeatureStreams.ToMessage, before, [e]);
  }

  /**
   * A recognised favorites job with correlation id `q` adds exactly one success message to
   * the unified stream, with id `q`, carrying the store's list after the job.
   */
  lemma {:induction false} FavoriteJobCorrelation(store: seq<Movie>, job: FavoriteWorker.FavoriteJob, elapsed: nat,
                               before: seq<BusEvent>, q: string)
    requires FavoritesStore.StoreInvariant(store)
    requires FavoriteWorker.JobKind(job.name).Some? && job.queryId == Some(q)
    ensures var step := FavoriteWorker.Step(store, job, elapsed);
      var after := before + step.events;
      && Stream(after) == Stream(before) + [StreamMessage(TypeName(FavoriteWorker.JobKind(job.name).value, true),
           Success, Some(q), Some(step.store), None, Some(elapsed))]
  {
    var step := FavoriteWorker.Step(store, job, elapsed);
    FavoriteWorker.StepSpec(store, job, elapsed);
    TerminalReachesStream(before, step.events[0]);
  }

  /**
   * Correlation ids keep concurrent requests apart: of two recognised movie jobs with distinct
   * ids `q1` and `q2`, a subscription bound to `q1` can be reached by the first job's message
   * and never by the second's.
   */
  lemma {:induction false} ConcurrentJobsIsolated(c: MovieWorker.Collaborators, job1: MovieWorker.MovieJob, job2: MovieWorker.MovieJob,
                               elapsed1: nat, elapsed2: nat, q1: string, q2: string, sub: ConnectionManager.Subscription)
    requires MovieWorker.JobKind(job1.name).Some? && MovieWorker.JobKind(job2.name).Some?
    requires job1.queryId == Some(q1) && job2.queryId == Some(q2) && q1 != q2 && sub.queryId == q1 && q1 != ""
    ensures var m2 := MapEventToResponse(MovieWorker.JobEvents(c, job2, elapsed2)[0]);
      !ConnectionManager.Matches(sub, m2)
    ensures var e1 := MovieWorker.JobEvents(c, job1, elapsed1)[0];
      TypeName(e1.kind, e1.Complete?) in sub.eventTypes ==> ConnectionManager.Matches(sub, MapEventToResponse(e1))
  {
    MovieWorker.JobEventsSpec(c, job1, elapsed1);
    MovieWorker.JobEventsSpec(c, job2, elapsed2);
  }
}

=== FILE: streams.dfy ===
/**
 * The two stream shapes the original program builds with rxjs and array methods:
 * `filter(keep)` followed by `map(f)`, and `filter(Boolean)` over optional values.
 */
module Streams {
  import opened Wrappers

  /** `filter(keep)` then `map(f)`: one output for every input `keep` lets through. */
  function FilterMap<A, B>(keep: A -> bool, f: A -> B, s: seq<A>): (r: seq<B>)
    ensures |r| <= |s|
  {
    if |s| == 0 then []
    else FilterMap(keep, f, s[..|s| - 1]) + (if keep(s[|s| - 1]) then [f(s[|s| - 1])] else [])
  }

  /** The positions of the inputs that `keep` lets through, in ascending order. */
  function Positions<A>(keep: A -> bool, s: seq<A>): seq<nat> {
    if |s| == 0 then []
    else Positions(keep, s[..|s| - 1]) + (if keep(s[|s| - 1]) then [|s| - 1] else [])
  }

  ghost predicate StrictlyIncreasing(ps: seq<nat>) {
    forall i, j :: 0 <= i < j < |ps| ==> ps[i] < ps[j]
  }

  /** Every position is in range, and positions ascend. */
  lemma {:induction false} PositionsAscend<A>(keep: A -> bool, s: seq<A>)
    ensures forall i :: 0 <= i < |Positions(keep, s)| ==> Positions(keep, s)[i] < |s|
    ensures StrictlyIncreasing(Positions(keep, s))
  {
    if |s| > 0 {
      var p := s[..|s| - 1];
      PositionsAscend(keep, p);
      var ps := Positions(keep, p);
      var tail: seq<nat> := if keep(s[|s| - 1]) then [|s| - 1] else [];
      assert Positions(keep, s) == ps + tail;
      forall i, j | 0 <= i < j < |ps + tail| ensures (ps + tail)[i] < (ps + tail)[j] {
        if j < |ps| {
          assert (ps + tail)[i] == ps[i] && (ps + tail)[j] == ps[j];
        } else {
          assert (ps + tail)[i] == ps[i] < |p|;
        }
      }
    }
  }

  /** A position is listed exactly when it holds an input that `keep` lets through. */
  lemma {:induction false} PositionsMembers<A>(keep: A -> bool, s: seq<A>)
    ensures forall k :: k in Positions(keep, s) <==> 0 <= k < |s| && keep(s[k])
  {
    if |s| > 0 {
      var p := s[..|s| - 1];
      PositionsMembers(keep, p);
      var ps := Positions(keep, p);
      var tail: seq<nat> := if keep(s[|s| - 1]) then [|s| - 1] else [];
      assert Positions(keep, s) == ps + tail;
      forall k: nat ensures k in ps + tail <==> k < |s| && keep(s[k]) {
        assert k in ps + tail <==> k in ps || k in tail;
        if k < |p| {
          assert p[k] == s[k];
        }
      }
    }
  }

  /** Output `i` is `f` of the input at the `i`-th position. */
  lemma {:induction false} FilterMapAt<A, B>(keep: A -> bool, f: A -> B, s: seq<A>)
    ensures |FilterMap(keep, f, s)| == |Positions(keep, s)|
    ensures forall i :: 0 <= i < |Positions(keep, s)| ==>
      Positions(keep, s)[i] < |s| && FilterMap(keep, f, s)[i] == f(s[Positions(keep, s)[i]])
  {
    if |s| > 0 {
      var p := s[..|s| - 1];
      FilterMapAt(keep, f, p);
      var ps := Positions(keep, p);
      var fs := FilterMap(keep, f, p);
      var last := s[|s| - 1];
      var tail: seq<nat> := if keep(last) then [|s| - 1] else [];
      var outs := if keep(last) then [f(last)] else [];
      assert Positions(keep, s) == ps + tail;
      assert FilterMap(keep, f, s) == fs + outs;
      forall i | 0 <= i < |ps + tail|
        ensures (ps + tail)[i] < |s| && (fs + outs)[i] == f(s[(ps + tail)[i]])
      {
        if i < |ps| {
          assert (ps + tail)[i] == ps[i] && (fs + outs)[i] == fs[i];
          assert p[ps[i]] == s[ps[i]];
        }
      }
    }
  }

  /**
   * `FilterMap` keeps order and loses nothing: output `i` is `f` of the `i`-th input that
   * passes, and the positions it draws from are exactly the passing ones, ascending.
   */
  lemma {:induction false} FilterMapSpec<A, B>(keep: A -> bool, f: A -> B, s: seq<A>)
    ensures |FilterMap(keep, f, s)| == |Positions(keep, s)|
    ensures StrictlyIncreasing(Positions(keep, s))
    ensures forall k :: k in Positions(keep, s) <==> 0 <= k < |s| && keep(s[k])
    ensures forall i :: 0 <= i < |Positions(keep, s)| ==>
      Positions(keep, s)[i] < |s| && FilterMap(keep, f, s)[i] == f(s[Positions(keep, s)[i]])
  {
    PositionsAscend(keep, s);
    PositionsMembers(keep, s);
    FilterMapAt(keep, f, s);
  }

  /** Events that arrive later produce messages later: the stream is incremental. */
  lemma {:induction false} FilterMapAppend<A, B>(keep: A -> bool, f: A -> B, s: seq<A>, t: seq<A>)
    ensures FilterMap(keep, f, s + t) == FilterMap(keep, f, s) + FilterMap(keep, f, t)
  {
    if |t| > 0 {
      var t' := t[..|t| - 1];
      assert (s + t)[..|s + t| - 1] == s + t';
      FilterMapAppend(keep, f, s, t');
    } else {
      assert s + t == s;
    }
  }

  predicate IsSome<T>(o: Option<T>) {
    o.Some?
  }

  /** `filter(Boolean)` over the results of a `map` whose failed entries are `None`. */
  function Compact<T>(s: seq<Option<T>>): (r: seq<T>)
    ensures |r| <= |s|
  {
    if |s| == 0 then []
    else Compact(s[..|s| - 1]) + (match s[|s| - 1] case Some(x) => [x] case None => [])
  }

  /** Output `i` is the value at the `i`-th present position. */
  lemma {:induction false} CompactAt<T>(s: seq<Option<T>>)
    ensures |Compact(s)| == |Positions(IsSome, s)|
    ensures forall i :: 0 <= i < |Compact(s)| ==>
      Positions(IsSome, s)[i] < |s| && s[Positions(IsSome, s)[i]] == Some(Compact(s)[i])
  {
    if |s| > 0 {
      var p := s[..|s| - 1];
      CompactAt(p);
      var ps := Positions(IsSome, p);
      var cs := Compact(p);
      var tail: seq<nat> := if s[|s| - 1].Some? then [|s| - 1] else [];
      var outs := match s[|s| - 1] case Some(x) => [x] case None => [];
      assert Positions(IsSome, s) == ps + tail;
      assert Compact(s) == cs + outs;
      forall i | 0 <= i < |cs + outs|
        ensures (ps + tail)[i] < |s| && s[(ps + tail)[i]] == Some((cs + outs)[i])
      {
        if i < |cs| {
          assert (ps + tail)[i] == ps[i] && (cs + outs)[i] == cs[i];
          assert p[ps[i]] == s[ps[i]];
        }
      }
    }
  }

  /**
   * `Compact` keeps exactly the present values, in their original order; it is empty
   * exactly when every entry is absent.
   */
  lemma {:induction false} CompactSpec<T>(s: seq<Option<T>>)
    ensures |Compact(s)| == |Positions(IsSome, s)|
    ensures StrictlyIncreasing(Positions(IsSome, s))
    ensures forall k :: k in Positions(IsSome, s) <==> 0 <= k < |s| && s[k].Some?
    ensures forall i :: 0 <= i < |Compact(s)| ==>
      Positions(IsSome, s)[i] < |s| && s[Positions(IsSome, s)[i]] == Some(Compact(s)[i])
    ensures Compact(s) == [] <==> forall k :: 0 <= k < |s| ==> s[k].None?
  {
    CompactAt(s);
    PositionsAscend(IsSome, s);
    PositionsMembers(IsSome, s);
    if Compact(s) != [] {
      var k := Positions(IsSome, s)[0];
      assert s[k].Some?;
    } else {
      forall k | 0 <= k < |s| ensures s[k].None? {
        assert k !in Positions(IsSome, s);
      }
    }
  }
}

=== FILE: unified_stream.dfy ===
/**
 * The unified server-sent-events endpoint (`GET /stream`): it forwards every event of the
 * twelve known classes, in bus order, to every connected client, tagged with a type name.
 */
module UnifiedStream {
  import opened Wrappers
  import opened Movies
  import opened Events
  import opened Streams

  const Success := "success"
  const Failure := "failure"
  const Unknown := "UNKNOWN"

  /**
   * The JSON object each message carries. `eventType` is the source's `type`; an absent
   * optional field is `None`.
   */
  datatype StreamMessage = StreamMessage(
    eventType: string,
    status: string,
    queryId: QueryId,
    data: Option<seq<Movie>>,
    error: Option<string>,
    duration: Option<nat>)

  /** The `EventTypes` constant: the type name of each operation's success and failure class. */
  function TypeName(kind: EventKind, success: bool): string {
    match kind
    case MovieSearch => if success then "MOVIE_SEARCH_SUCCESS" else "MOVIE_SEARCH_FAILURE"
    case SemanticMovieSearch => if success then "SEMANTIC_SEARCH_SUCCESS" else "SEMANTIC_SEARCH_FAILURE"
    case MovieRecommendations => if success then "RECOMMENDATIONS_SUCCESS" else "RECOMMENDATIONS_FAILURE"
    case AddFavoriteMovie => if success then "ADD_FAVORITE_SUCCESS" else "ADD_FAVORITE_FAILURE"
    case RemoveFavoriteMovie => if success then "REMOVE_FAVORITE_SUCCESS" else "REMOVE_FAVORITE_FAILURE"
    case GetFavoriteMovies => if success then "GET_FAVORITES_SUCCESS" else "GET_FAVORITES_FAILURE"
  }

  /** `ALL_EVENTS.some(EventClass => event instanceof EventClass)`. */
  predicate IsForwarded(e: BusEvent) {
    e.Complete? || e.Failed?
  }

  /** `mapEventToResponse`: the if-chain over the twelve classes, then the fallback. */
  function MapEventToResponse(e: BusEvent): StreamMessage {
    match e
    case Complete(kind, queryId, response, durationMs) =>
      StreamMessage(TypeName(kind, true), Success, queryId, Some(response), None, Some(durationMs))
    case Failed(kind, queryId, message) =>
      StreamMessage(TypeName(kind, false), Failure, queryId, None, Some(message), None)
    case Other(_) =>
      StreamMessage(Unknown, Failure, Some(""), None, Some("Unknown event type"), None)
  }

  /** `unifiedStream()`: the bus piped through the class filter and the mapper. */
  function Stream(events: seq<BusEvent>): seq<StreamMessage> {
    FilterMap(IsForwarded, MapEventToResponse, events)
  }

  /** The twelve class tags map to twelve distinct type names, none of them "UNKNOWN". */
  lemma {:induction false} TypeNameInjective(k1: EventKind, s1: bool, k2: EventKind, s2: bool)
    ensures TypeName(k1, s1) == TypeName(k2, s2) <==> k1 == k2 && s1 == s2
    ensures TypeName(k1, s1) != Unknown
  {
  }

  /** What a forwarded event becomes, stated per class kind and outcome. */
  ghost predicate Describes(m: StreamMessage, e: BusEvent) {
    && IsForwarded(e)
    && m.eventType == TypeName(e.kind, e.Complete?)
    && m.queryId == e.queryId
    && (m.status == Success <==> e.Complete?)
    && (m.status == Failure <==> e.Failed?)
    && (e.Complete? ==> m.data == Some(e.response) && m.duration == Some(e.durationMs) && m.error.None?)
    && (e.Failed? ==> m.error == Some(e.message) && m.data.None? && m.duration.None?)
  }

  /**
   * One message per forwarded event, in bus order, and nothing for any other event:
   * message `i` describes the `i`-th forwarded event. The correlation id is copied
   * unchanged and never used to filter.
   */
  lemma {:induction false} StreamSpec(events: seq<BusEvent>)
    ensures |Stream(events)| == |Positions(IsForwarded, events)|
    ensures StrictlyIncreasing(Positions(IsForwarded, events))
    ensures forall k :: k in Positions(IsForwarded, events) <==> 0 <= k < |events| && IsForwarded(events[k])
    ensures forall i :: 0 <= i < |Stream(events)| ==>
      Positions(IsForwarded, events)[i] < |events| &&
      Describes(Stream(events)[i], events[Positions(IsForwarded, events)[i]])
  {
    FilterMapSpec(IsForwarded, MapEventToResponse, events);
    assert Success != Failure;
  }

  /** The "UNKNOWN" fallback of the mapper never reaches a client. */
  lemma {:induction false} FallbackUnreachable(events: seq<BusEvent>, e: BusEvent)
    ensures forall m :: m in Stream(events) ==> m.eventType != Unknown
    ensures !IsForwarded(e) ==>
      var m := MapEventToResponse(e);
      m.eventType == Unknown && m.status == Failure && m.queryId == Some("")
  {
    StreamSpec(events);
    forall m | m in Stream(events) ensures m.eventType != Unknown {
      var i :| 0 <= i < |Stream(events)| && Stream(events)[i] == m;
      var e := events[Positions(IsForwarded, events)[i]];
      TypeNameInjective(e.kind, e.Complete?, e.kind, e.Complete?);
    }
  }
}

=== FILE: wrappers.dfy ===
/** Failure-compatible wrappers shared by every module of the model. */
module Wrappers {

  /** A value that may be absent (`undefined`/`null` in the original program). */
  datatype Option<+T> = None | Some(value: T) {
    function GetOr(default: T): T {
      match this
      case Some(v) => v
      case None => default
    }
  }

  /** The outcome of a call that may throw: the thrown error is kept as its `message`. */
  datatype Result<+T> = Ok(value: T) | Err(message: string)
}
